=== FILE: README.md ===
# reddit-media-downloader, modelled in Dafny

A model of the core of `main.py` of reddit-media-downloader. The program polls
the hot feed of a subreddit, skips posts whose id is already in the ledger
`downloaded.csv`, and classifies every other post into one of four download
strategies, or as unsupported:
- direct media;
- an image URL;
- a hosted video;
- a gallery.

It downloads the media under a sanitized file name and appends `id,date` to
the ledger. It stops at the optional `DOWNLOAD_LIMIT` and moves the
destination folder round-robin through `SUBREDDITS` after every post.

The project is split into one module per concern:

- `wrappers.dfy`: `Option` and `Result`.
- `text.dfy`: the Python string operations the program relies on: `s[:n]`,
  `str.endswith`, `str.split` on one character (with its inverse `Join`),
  `url.split('.')[-1]`, `str(n)` and `int(s)` on decimal digits, and zero
  padding.
- `sanitize.dfy`: `safe_title`, modelled as written, as nine successive
  `str.replace` calls.
- `dates.dfy`: `str(date)` (ISO `YYYY-MM-DD`), the field parser
  `[int(i) for i in day.split('-')]`, and `days_diff`. Today's date is a
  parameter. The `IndexError` and `ValueError` paths return a `Result`, and
  the path that falls off the end of the function returns `None`.
- `media.dfy`: the post record, the classifier, the naming policy
  (truncation to 50 and 10 characters, sanitizing, `{title}_{author}.{ext}`,
  `file{i}_{author}.{ext}`), and the effects of carrying out a plan, as a
  list of folder and download actions.
- `ledger.dfy`: reading the ledger (the first field of every non-empty CSV
  row, or nothing when the file is missing) and the rows a run appends.
- `settings.dfy`: `DOWNLOAD_LIMIT` as loaded (absent means infinity, `null`
  is kept) and the cap test.
- `driver.dfy`: the loop of `main` as a fold over the post stream.

Points where the loop's behaviour is easy to misread:
- The stream is always the hot feed of `SUBREDDITS[0]`. Only the destination
  folder rotates.
- The in-memory ledger is loaded once and never updated during a run. A post
  the stream yields twice is therefore recorded and downloaded twice.
- An unsupported post is still recorded and counted.
- The cap comparison `>=` comes right after the increment, and the loop breaks
  before the folder rotates. A cap of 0 or less still lets one post through.
- Rotation uses `list.index`, so with a repeated subreddit name the folder
  cycle is shorter than the list.
- All subreddit folders are created at startup, not lazily.
- Only a missing ledger file counts as an empty ledger. Any other read error
  propagates.

Inputs replace the effects: the post stream (`fetch`), the ledger file's rows
(or `None` when it does not exist), and today's date. The outputs are the
appended rows and the posts dispatched to the executor, each with its folder.
`RunActions` turns the dispatched posts into the folder and download actions
of the whole run.

## Model

| member | source | states |
|---|---|---|
| Sanitize.Replace | reddit-media-downloader-main/reddit-media-downloader-main/main.py:35 | `str.replace` with a one-character target: same length, each occurrence of the target becomes the replacement and every other character is kept |
| Sanitize.ReplaceEach | reddit-media-downloader-main/reddit-media-downloader-main/main.py:34-35 | the loop of replacements: a character in the target list becomes `_`, all others are kept, position by position |
| Sanitize.SafeTitle | reddit-media-downloader-main/reddit-media-downloader-main/main.py:31-36 | `safe_title` keeps the length and maps each character independently: reserved ones to `_`, others unchanged |
| Sanitize.SafeTitleIsSafe | reddit-media-downloader-main/reddit-media-downloader-main/main.py:31-36 | no reserved character survives sanitizing, and a non-reserved character is never altered |
| Sanitize.SafeTitleIdempotent | reddit-media-downloader-main/reddit-media-downloader-main/main.py:31-36 | sanitizing a sanitized text changes nothing |
| Sanitize.SafeTitlePrefix | reddit-media-downloader-main/reddit-media-downloader-main/main.py:91-100 | truncating then sanitizing equals sanitizing then truncating |
| Sanitize.SafeTitleOf | reddit-media-downloader-main/reddit-media-downloader-main/main.py:31-36 | a text of the same length whose every character is the sanitized original character is exactly `safe_title` of the original |
| Sanitize.ReservedExactly | reddit-media-downloader-main/reddit-media-downloader-main/main.py:33 | the reserved characters are exactly `\ / : * ? " < > |` |
| Text.Take | reddit-media-downloader-main/reddit-media-downloader-main/main.py:91-92 | `s[:n]` is a prefix of `s` of length `min(len(s), n)` |
| Text.Split | reddit-media-downloader-main/reddit-media-downloader-main/main.py:99 | `str.split` on one character: at least one part, no part holds the separator, joining the parts with it gives the text back, and a text without the separator is its own single part |
| Text.SplitAtFirst | reddit-media-downloader-main/reddit-media-downloader-main/main.py:21 | the text before the first separator is the first part and the rest splits on its own |
| Text.JoinLast | reddit-media-downloader-main/reddit-media-downloader-main/main.py:99 | the last part of a join ends the joined text and, with several parts, follows a separator |
| Text.Extension | reddit-media-downloader-main/reddit-media-downloader-main/main.py:99 | `split('.')[-1]` is a dot-free suffix of the text, preceded by a dot unless it is the whole text |
| Text.ExtensionOfDottedSuffix | reddit-media-downloader-main/reddit-media-downloader-main/main.py:106-107 | a text ending in `.e` with dot-free `e` has extension exactly `e` |
| Text.NatToString | reddit-media-downloader-main/reddit-media-downloader-main/main.py:132 | `str(n)` is a non-empty run of decimal digits |
| Text.NatToStringNoLeadingZero | reddit-media-downloader-main/reddit-media-downloader-main/main.py:132 | `str(n)` starts with `0` exactly when `n` is zero, and then it is the single digit `0` |
| Text.ParseNatToString | reddit-media-downloader-main/reddit-media-downloader-main/main.py:21 | `int(str(n)) == n` |
| Text.NatToStringInjective | reddit-media-downloader-main/reddit-media-downloader-main/main.py:132 | different numbers have different decimal texts |
| Text.ParseNatLeadingZero | reddit-media-downloader-main/reddit-media-downloader-main/main.py:21 | a leading zero does not change the value `int` reads |
| Text.PadZeros | reddit-media-downloader-main/reddit-media-downloader-main/main.py:142 | zero padding reaches the width (or keeps a longer text), keeps digits digits, and keeps the value |
| Dates.FormatDate | reddit-media-downloader-main/reddit-media-downloader-main/main.py:142 | `str(date)`: pinned down by `Dates.ParseFormatRoundTrip`, which reads year, month and day back from it, and `Dates.FieldRoundTrip`, which bounds each padded field |
| Dates.ParseFields | reddit-media-downloader-main/reddit-media-downloader-main/main.py:21 | `[int(i) for i in day.split('-')]`: pinned down by `Dates.ParseAll` (which parts succeed and with what values) and `Dates.ParseFormatRoundTrip` (on a written date it yields the date's three fields) |
| Dates.ParseAll | reddit-media-downloader-main/reddit-media-downloader-main/main.py:21 | `[int(i) for i in parts]` succeeds exactly when every part is a non-empty digit string, then yields each part's value in order, and otherwise raises `ValueError` |
| Dates.FieldRoundTrip | reddit-media-downloader-main/reddit-media-downloader-main/main.py:142 | a padded date field holds no dash and reads back as its number |
| Dates.ParseThree | reddit-media-downloader-main/reddit-media-downloader-main/main.py:21 | three numeric parts read back as their three numbers |
| Dates.SplitFormatted | reddit-media-downloader-main/reddit-media-downloader-main/main.py:21 | `y-m-d` with dash-free fields splits into exactly those fields |
| Dates.ParseFormatRoundTrip | reddit-media-downloader-main/reddit-media-downloader-main/main.py:21-22 | reading back `str(date)` gives its year, month and day |
| Dates.DaysDiff | reddit-media-downloader-main/reddit-media-downloader-main/main.py:20-29 | with three fields: the 30-day-month distance when the year matches and the month is not later than today's, `None` for a later month of the same year, 365 for another year; it fails, always with `IndexError`, exactly when there are no fields, or fewer than three with the year equal to today's and (for two fields) the month not later than today's |
| Dates.DaysDiffOfWrittenDate | reddit-media-downloader-main/reddit-media-downloader-main/main.py:20-29 | on a date as the program writes it, `days_diff` never raises and yields the three outcomes above by year and month |
| Dates.DaysDiffText | reddit-media-downloader-main/reddit-media-downloader-main/main.py:20-22 | `days_diff` on the date text: pinned down by `Dates.DaysDiffOfWrittenDate`, which gives its outcome on every date the program writes, and `Dates.DaysDiff` for the fields it parses |
| Media.Classify | reddit-media-downloader-main/reddit-media-downloader-main/main.py:97-138 | first match wins: single file iff direct media or image suffix; hosted video iff not those and a video with a fallback; gallery iff none of those and a gallery payload; otherwise unsupported; the URL, fallback and items with their extensions are carried over |
| Media.ImagePostExtension | reddit-media-downloader-main/reddit-media-downloader-main/main.py:106-108 | a post whose URL has an image suffix is a single file whose extension is that suffix without the dot, even when flagged direct media |
| Media.ImageExtension | reddit-media-downloader-main/reddit-media-downloader-main/main.py:106-107 | the extension of an image URL is one of jpg, jpeg, png, gif and the URL ends with it after a dot |
| Media.SanitizedPrefix | reddit-media-downloader-main/reddit-media-downloader-main/main.py:91-92 | sanitizing the first n characters gives min(len, n) characters, each the sanitized original and none reserved |
| Media.NamePartsSanitized | reddit-media-downloader-main/reddit-media-downloader-main/main.py:90-100 | the title part has at most 50 and the author part at most 10 characters (the author `str(None)` for a deleted account), each the sanitized original, none reserved |
| Media.Execute | reddit-media-downloader-main/reddit-media-downloader-main/main.py:96-138 | an unsupported post does nothing; every other action's path starts with the current subreddit folder, and only a gallery adds a second segment, the sanitized title |
| Media.ExecuteFetchesPlan | reddit-media-downloader-main/reddit-media-downloader-main/main.py:96-138 | the downloads fetch exactly the plan's URLs, in order; a direct-media or image post is one download into the subreddit folder named `{title}_{author}.{ext}`; a hosted video is one download of the fallback URL named `{title}_{author}.mp4`; a gallery first creates `{folder}/{title}`, then item k (from 1) fetches item k's URL into that folder as `file{k}_{author}.{ext}` with item k's extension |
| Media.SingleName | reddit-media-downloader-main/reddit-media-downloader-main/main.py:100-115 | `{title}_{author}.{ext}`: pinned down by `Media.ExecuteFetchesPlan`, which states its stem, dot and extension for the single-file and video downloads |
| Media.ItemName | reddit-media-downloader-main/reddit-media-downloader-main/main.py:132 | `file{idx}_{author}.{ext}`: pinned down by `Media.ExecuteFetchesPlan` (the stem, dot and extension of item k's name) and `Media.ItemNamesDistinct` (different indices give different names) |
| Media.ClassifyPlainGallery | reddit-media-downloader-main/reddit-media-downloader-main/main.py:119-131 | a post that is not direct media, has no image suffix and is not a video, whose payload holds only gallery items, is a gallery whose items are the item URLs, each with its `split('.')[-1]` |
| Media.GalleryNamingExample | reddit-media-downloader-main/reddit-media-downloader-main/main.py:119-134 | post `Foo/Bar` by `alice` with gallery items `a.png` and `b.jpg`: create `{folder}/Foo_Bar`, then download `a.png` as `file1_alice.png` and `b.jpg` as `file2_alice.jpg` into it, and nothing else |
| Media.DotDotTitleGallery | reddit-media-downloader-main/reddit-media-downloader-main/main.py:119-125 | a post titled `..` keeps the title part `..`, so its gallery subfolder is `..` inside the current folder, which the path join resolves to the parent of that folder |
| Media.LeadingDigitsOf | reddit-media-downloader-main/reddit-media-downloader-main/main.py:132 | the leading digit run of digits followed by a non-digit is exactly those digits |
| Media.DigitsBeforeUnderscore | reddit-media-downloader-main/reddit-media-downloader-main/main.py:132 | a digit run followed by `_` is determined by the whole text |
| Media.ItemNamesDistinct | reddit-media-downloader-main/reddit-media-downloader-main/main.py:129-133 | gallery items at different positions get different file names |
| Media.ExecuteNamesDistinct | reddit-media-downloader-main/reddit-media-downloader-main/main.py:119-135 | no two downloads of one post write the same file |
| Ledger.FirstFields | reddit-media-downloader-main/reddit-media-downloader-main/main.py:68 | an id is read iff some non-empty row starts with it, and never more ids than rows |
| Ledger.Load | reddit-media-downloader-main/reddit-media-downloader-main/main.py:66-70 | a missing file gives the empty ledger; otherwise the ids are the first fields of the non-empty rows |
| Ledger.FirstFieldsAppend | reddit-media-downloader-main/reddit-media-downloader-main/main.py:68 | reading two halves of a file is reading each in turn |
| Ledger.FirstFieldsOfEncoded | reddit-media-downloader-main/reddit-media-downloader-main/main.py:141-142 | rows written as `[id, date]` read back as their ids, in order |
| Ledger.ReloadAfterAppend | reddit-media-downloader-main/reddit-media-downloader-main/main.py:141-142 | after rows are appended, the next load yields the old ids followed by the new ones |
| Settings.LoadedCap | reddit-media-downloader-main/reddit-media-downloader-main/main.py:50 | with the defaulting of `DOWNLOAD_LIMIT`, the cap test holds iff the key holds a number and the counter reached it; absent and `null` never cap |
| Settings.LoadLimit | reddit-media-downloader-main/reddit-media-downloader-main/main.py:50 | the defaulting of `DOWNLOAD_LIMIT`: pinned down by `Settings.LoadedCap`, which states the cap test on every loaded value |
| Settings.CapReached | reddit-media-downloader-main/reddit-media-downloader-main/main.py:145 | the break test `limit is not None and downloaded >= limit`: pinned down by `Settings.LoadedCap`, and by `Driver.RunStopsAtCap` for a whole run |
| Driver.IndexOf | reddit-media-downloader-main/reddit-media-downloader-main/main.py:151 | `list.index` finds an occurrence and no earlier one |
| Driver.NextFolder | reddit-media-downloader-main/reddit-media-downloader-main/main.py:150-154 | the next folder is a configured subreddit: the entry after the first occurrence of the current one, wrapping to the first |
| Driver.Rotate | reddit-media-downloader-main/reddit-media-downloader-main/main.py:150-154 | k switches stay within the configured subreddits |
| Driver.RotateSucc | reddit-media-downloader-main/reddit-media-downloader-main/main.py:150-154 | k + 1 switches are k switches and one more |
| Driver.RoundRobin | reddit-media-downloader-main/reddit-media-downloader-main/main.py:150-154 | with distinct names the folder after k switches from the first is `SUBREDDITS[k % n]` |
| Driver.RepeatedNameShortensCycle | reddit-media-downloader-main/reddit-media-downloader-main/main.py:151-154 | from `["a","b","a"]` the folders go a, b, a, b: the list has three entries but the cycle has length two, so the fourth folder is not `SUBREDDITS[3 % 3]` |
| Driver.DispatchesOfIndexed | reddit-media-downloader-main/reddit-media-downloader-main/main.py:101 | post k of a stretch is stored in the folder k switches after the start |
| Driver.RowsOfMembers | reddit-media-downloader-main/reddit-media-downloader-main/main.py:140-142 | each appended row is for a post outside the startup ledger and dated today, every such post has its row, and there are at most as many rows as posts |
| Driver.Step | reddit-media-downloader-main/reddit-media-downloader-main/main.py:88-154 | a post in the ledger only moves the folder; any other post adds one row, one dispatch in the current folder and one to the counter; the loop stops iff the post is new and the cap is reached, and then the folder stays |
| Driver.Run | reddit-media-downloader-main/reddit-media-downloader-main/main.py:86-154 | the run takes a prefix of the stream, the whole stream unless stopped at the cap right after a new post, and keeps the counter equal to the rows and dispatches added |
| Driver.RowsOfAppend | reddit-media-downloader-main/reddit-media-downloader-main/main.py:140-142 | the rows of two stretches of posts are the rows of the first followed by those of the second |
| Driver.RunRows | reddit-media-downloader-main/reddit-media-downloader-main/main.py:140-142 | the appended rows are exactly those of the consumed posts, in stream order |
| Driver.RunDispatches | reddit-media-downloader-main/reddit-media-downloader-main/main.py:96-138 | the dispatched posts are exactly the consumed new posts, in order, each in the folder reached by then |
| Driver.RunFolder | reddit-media-downloader-main/reddit-media-downloader-main/main.py:144-154 | the folder switches once per iteration except the one that hits the cap |
| Driver.RunStopsAtCap | reddit-media-downloader-main/reddit-media-downloader-main/main.py:144-146 | starting below `max(1, n)`, a run stops at the cap exactly when the counter reaches `max(1, n)` and otherwise ends below it |
| Driver.RecordedPostsSkipped | reddit-media-downloader-main/reddit-media-downloader-main/main.py:147-154 | posts all in the ledger change nothing but the folder |
| Driver.Main | reddit-media-downloader-main/reddit-media-downloader-main/main.py:58-87 | an empty subreddit list fails with `IndexError`; otherwise the counter equals the rows appended and the posts dispatched |
| Driver.RunActions | reddit-media-downloader-main/reddit-media-downloader-main/main.py:72-75 | the run's effects start with the startup folders, which are all it does when nothing is dispatched |
| Driver.StartupFolders | reddit-media-downloader-main/reddit-media-downloader-main/main.py:73-75 | the startup loop: pinned down by `Driver.StartupInFolders` (only configured folders) and `Driver.RunActions` (they come first in the run's effects) |
| Driver.Perform | reddit-media-downloader-main/reddit-media-downloader-main/main.py:96-138 | carrying out one dispatched post: pinned down by `Driver.PerformInFolder` and, through `Media.Execute`, by `Media.ExecuteFetchesPlan` |
| Driver.DispatchesInFolders | reddit-media-downloader-main/reddit-media-downloader-main/main.py:150-154 | starting from a configured folder, every post of a stretch is stored in a configured folder |
| Driver.DispatchesAreNew | reddit-media-downloader-main/reddit-media-downloader-main/main.py:88-89 | a stretch of posts dispatches only posts outside the startup ledger |
| Driver.ShapeStaysBelow | reddit-media-downloader-main/reddit-media-downloader-main/main.py:121-134 | an action of a run whose second segment is a title part other than `..` stays below its first segment |
| Driver.StartupInFolders | reddit-media-downloader-main/reddit-media-downloader-main/main.py:72-75 | the startup step creates only the configured subreddit folders |
| Driver.PerformInFolder | reddit-media-downloader-main/reddit-media-downloader-main/main.py:96-138 | a dispatch acts in its own folder or, for a gallery, in the subfolder named after its title part; no path has more than two segments |
| Driver.RunActionsInFolders | reddit-media-downloader-main/reddit-media-downloader-main/main.py:72-138 | when every dispatch is in a configured folder, every action's first path segment is a configured subreddit and its only other segment is a dispatched title part; with no title part `..`, no path climbs out of its subreddit folder |
| Driver.MainWritesInsideSubreddits | reddit-media-downloader-main/reddit-media-downloader-main/main.py:72-154 | every folder a run creates and every file it downloads has a configured subreddit as first path segment, and stays below it unless a dispatched title part is `..` |
| Driver.MainReadsFirstFeedOnly | reddit-media-downloader-main/reddit-media-downloader-main/main.py:79-87 | the run depends on the first subreddit's feed only |
| Driver.MainRecordsNewPosts | reddit-media-downloader-main/reddit-media-downloader-main/main.py:89-142 | within one run, rows and dispatches are only for posts outside the startup ledger, rows are dated today, and every consumed new post has its row |
| Driver.MainStopsAtCap | reddit-media-downloader-main/reddit-media-downloader-main/main.py:144-146 | with `DOWNLOAD_LIMIT == n` at most `max(1, n)` posts are downloaded, and the run ends at the cap iff exactly that many were |
| Driver.UncappedRunReadsAll | reddit-media-downloader-main/reddit-media-downloader-main/main.py:145 | without a numeric cap the whole stream is read and every new post recorded |
| Driver.CapOfTwoStopsBeforeThird | reddit-media-downloader-main/reddit-media-downloader-main/main.py:144-146 | with cap 2 and three new posts, two are recorded and the third is never taken |
| Driver.RepeatedPostRecordedTwice | reddit-media-downloader-main/reddit-media-downloader-main/main.py:89 | a new post yielded twice in a row is recorded twice, whenever the cap does not stop the run after the first copy |
| Driver.RepeatedPostRecordedAtEachCopy | reddit-media-downloader-main/reddit-media-downloader-main/main.py:88-142 | a new post consumed at two positions of one run, with anything in between, is recorded at two different appended rows, both dated today |
| Driver.ConsumedIdsInNextLedger | reddit-media-downloader-main/reddit-media-downloader-main/main.py:66-70 | after a run's rows are appended to the ledger file, every id the run consumed is in the ledger the next run loads |
| Driver.LaterRunRepeatsNoConsumedId | reddit-media-downloader-main/reddit-media-downloader-main/main.py:66-142 | for any later stream, a later run dispatches and records no id the earlier run consumed and no id of the earlier run's rows |
| Driver.SecondRunRepeatsNothing | reddit-media-downloader-main/reddit-media-downloader-main/main.py:66-70 | the special case of a second stream made only of posts the first run consumed: the second run downloads, records and dispatches nothing |

## Left out

- The feed client (PRAW), its credentials and rate limiting: the stream is the `fetch` parameter.
- The transfers themselves (`requests.get`, `urlretrieve`, file writes) and their failures are not modelled. `urlretrieve` raises on an HTTP error status, and nothing catches it, so the run ends. `requests.get` in the direct-media branch does not raise on an error status: the error page is written under the media file name, and the post is still recorded and counted, as the model records every new post.
- Filesystem existence checks are not modelled: `EnsureFolder` stands for `if not os.path.exists: os.makedirs`. Paths are lists of segments, not joined text, so `..` and `/` inside a segment have no meaning in the model.
- Media.Execute: states where each path starts, not where it resolves. A gallery titled `..` resolves to the parent of the subreddit folder (`Media.DotDotTitleGallery`). An extension taken from a URL may also contain `/`: `https://v.redd.it/abc` gives `it/abc`, so the file name `{title}_{author}.it/abc` names a file inside a folder `{title}_{author}.it` that the program never creates. The `open` or `urlretrieve` then raises `FileNotFoundError`, nothing catches it, and the run ends before the post's row is written. The model emits the `Download` and carries on.
- Driver.MainRecordsNewPosts: every consumed new post gets its row only because transfers cannot fail in the model. In the program a failing transfer, such as the `/`-in-extension case above, ends the run before that post's row is written, so the program never records a post that the model records.
- Driver.PerformInFolder: the first segment is the dispatch's folder, but the path resolves outside it for a gallery titled `..`, because `safe_title` keeps dots.
- Driver.RunActionsInFolders: being below a configured subreddit folder is proved only when no dispatched title part is `..`. The program does write into the parent folder in that case.
- Driver.MainWritesInsideSubreddits: the same limit applies for a whole run. A run can write into the parent of a subreddit folder through a gallery titled `..`.
- Logging, colorama and `configure_logger` only produce console and log output.
- `handle_keyboard_interrupt` and cancellation are left out: they depend on an asynchronous signal, not on the data.
- JSON parsing of `config.json` is not modelled, and neither is a fractional or non-numeric `DOWNLOAD_LIMIT`: `Settings.Limit` holds only `null`, an integer or infinity.
- The CSV text encoding and quoting of `downloaded.csv` belong to Python's `csv` module: the file is modelled as its rows of fields.
- Errors other than a missing ledger file, such as permission or decoding errors, are not modelled: `Ledger.Load` only distinguishes a missing file from a present one.
- Malformed media payloads are not modelled: `MediaPayload` has only the keys that are read, so a payload missing `fallback_url`, `items` or `media_url` (a `KeyError` in the program) cannot be expressed.
- Dates.ParseAll and Dates.ParseFields: `int` is modelled on ASCII digit strings only. Python also accepts a sign, surrounding whitespace, underscores and other Unicode digits. Dates the program writes never use these.
- `Driver.Main`: `date.today()` is read once as the `today` parameter. The program reads it again for each row, so a run across midnight can date rows differently.
- `days_diff` has no caller in the program. It is modelled on its own and is not part of the driver.

=== FILE: dates.dfy ===
/** Calendar dates as the downloader writes and reads them, and `days_diff`,
    the day-distance estimate that treats every month as 30 days long. */
module Dates {
  import opened Wrappers
  import opened Text

  /** A calendar date, as `datetime.date` holds it. */
  datatype Date = Date(year: nat, month: nat, day: nat)

  /** The exceptions `days_diff` can raise on a malformed date string. */
  datatype PyError = ValueError | IndexError

  /** `str(d)`: the ISO form `YYYY-MM-DD` with zero-padded fields. */
  function FormatDate(d: Date): string
  {
    PadZeros(NatToString(d.year), 4) + "-" + PadZeros(NatToString(d.month), 2) + "-" + PadZeros(NatToString(d.day), 2)
  }

  /** Python's `int(s)`, restricted to ASCII digit strings: empty or
      non-digit text raises `ValueError`. */
  function ParseInt(s: string): Result<nat, PyError>
  {
    if |s| > 0 && AllDigits(s) then Success(ParseNat(s)) else Failure(ValueError)
  }

  /** `[int(i) for i in parts]`: fails when any part is not a number. */
  function ParseAll(parts: seq<string>): (r: Result<seq<nat>, PyError>)
    ensures r.Success? <==> forall i :: 0 <= i < |parts| ==> |parts[i]| > 0 && AllDigits(parts[i])
    ensures r.Success? ==> |r.value| == |parts|
    ensures r.Success? ==> forall i :: 0 <= i < |parts| ==> r.value[i] == ParseNat(parts[i])
    ensures r.Failure? ==> r.error == ValueError
    decreases |parts|
  {
    if |parts| == 0 then Success([])
    else
      match ParseInt(parts[0])
      case Failure(e) => Failure(e)
      case Success(v) =>
        match ParseAll(parts[1..])
        case Failure(e) => Failure(e)
        case Success(vs) => Success([v] + vs)
  }

  /** `[int(i) for i in s.split('-')]`. */
  function ParseFields(s: string): Result<seq<nat>, PyError>
  {
    ParseAll(Split(s, '-'))
  }

  /** One zero-padded field of a formatted date reads back as its number. */
  lemma FieldRoundTrip(n: nat, w: nat)
    ensures var f := PadZeros(NatToString(n), w);
      '-' !in f && ParseInt(f) == Success(n)
  {
    ParseNatToString(n);
    var f := PadZeros(NatToString(n), w);
    assert forall i :: 0 <= i < |f| ==> f[i] != '-';
  }

  /** Three numeric parts read back as their three numbers. */
  lemma ParseThree(a: string, b: string, c: string, x: nat, y: nat, z: nat)
    requires ParseInt(a) == Success(x) && ParseInt(b) == Success(y) && ParseInt(c) == Success(z)
    ensures ParseAll([a, b, c]) == Success([x, y, z])
  {
    var parts := [a, b, c];
    assert parts[0] == a && parts[1] == b && parts[2] == c;
    assert ParseAll(parts).value == [x, y, z];
  }

  /** A formatted date splits at its two dashes into its three fields. */
  lemma SplitFormatted(y: string, m: string, dd: string)
    requires '-' !in y && '-' !in m && '-' !in dd
    ensures Split(y + "-" + m + "-" + dd, '-') == [y, m, dd]
  {
    SplitAtFirst(m, '-', dd);
    SplitAtFirst(y, '-', m + ['-'] + dd);
    assert y + "-" + m + "-" + dd == y + ['-'] + (m + ['-'] + dd);
  }

  /** Reading back a formatted date gives its year, month and day. */
  lemma ParseFormatRoundTrip(d: Date)
    ensures ParseFields(FormatDate(d)) == Success([d.year, d.month, d.day])
  {
    var y := PadZeros(NatToString(d.year), 4);
    var m := PadZeros(NatToString(d.month), 2);
    var dd := PadZeros(NatToString(d.day), 2);
    FieldRoundTrip(d.year, 4);
    FieldRoundTrip(d.month, 2);
    FieldRoundTrip(d.day, 2);
    SplitFormatted(y, m, dd);
    ParseThree(y, m, dd, d.year, d.month, d.day);
  }

  /** A day number under the 30-day-month approximation. */
  function DayNumber30(month: int, day: int): int
  {
    30 * month + day
  }

  /** `days_diff(day)` given the parsed fields `d1` of `day` and the date
      `today`. On well-formed fields it is the 30-day-month distance within
      one year, `None` for a later month of the same year (`days_diff` falls
      off the end of the function) and 365 for any other year. Fewer than
      three fields raise `IndexError` only on the paths that read them. */
  function DaysDiff(d1: seq<nat>, today: Date): (r: Result<Option<int>, PyError>)
    ensures |d1| >= 3 ==> r.Success?
    ensures |d1| >= 3 && d1[0] == today.year && d1[1] <= today.month ==>
      r == Success(Some(DayNumber30(today.month, today.day) - DayNumber30(d1[1], d1[2])))
    ensures |d1| >= 2 && d1[0] == today.year && d1[1] > today.month ==> r == Success(None)
    ensures |d1| >= 1 && d1[0] != today.year ==> r == Success(Some(365))
    ensures r.Failure? ==> r.error == IndexError
    ensures r.Failure? <==>
      |d1| == 0 || (|d1| < 3 && d1[0] == today.year && (|d1| == 1 || d1[1] <= today.month))
  {
    var d2: seq<int> := [today.year, today.month, today.day];
    if d1[..Min(2, |d1|)] == d2[..2] then
      if |d1| < 3 then Failure(IndexError) else Success(Some(d2[2] - d1[2] as int))
    else if |d1| == 0 then Failure(IndexError)
    else if d1[0] == d2[0] then
      if |d1| < 2 then Failure(IndexError)
      else if d1[1] < d2[1] then
        if |d1| < 3 then Failure(IndexError)
        else Success(Some((30 - d1[2] as int) + d2[2] + 30 * (d2[1] - d1[1] - 1)))
      else Success(None)
    else Success(Some(365))
  }

  /** `days_diff(day)` on the date string itself. */
  function DaysDiffText(day: string, today: Date): Result<Option<int>, PyError>
  {
    match ParseFields(day)
    case Failure(e) => Failure(e)
    case Success(d1) => DaysDiff(d1, today)
  }

  /** On a date the downloader itself wrote (`str(date.today())` in the
      ledger), `days_diff` never raises and agrees with the 30-day-month
      distance within a year. */
  lemma DaysDiffOfWrittenDate(d: Date, today: Date)
    ensures DaysDiffText(FormatDate(d), today).Success?
    ensures d.year == today.year && d.month <= today.month ==>
      DaysDiffText(FormatDate(d), today) == Success(Some(DayNumber30(today.month, today.day) - DayNumber30(d.month, d.day)))
    ensures d.year == today.year && d.month > today.month ==> DaysDiffText(FormatDate(d), today) == Success(None)
    ensures d.year != today.year ==> DaysDiffText(FormatDate(d), today) == Success(Some(365))
  {
    ParseFormatRoundTrip(d);
    var fields: seq<nat> := [d.year, d.month, d.day];
    assert DaysDiffText(FormatDate(d), today) == DaysDiff(fields, today);
  }
}

=== FILE: driver.dfy ===
/** The rotation driver of `main`: a fold over the post stream that checks
    the startup ledger, classifies and "downloads" each new post, appends a
    ledger row, counts, stops at the cap, and moves the destination folder
    round-robin through the configured subreddits. Network, filesystem and
    clock are replaced by inputs (the post stream, the ledger file's rows,
    today's date) and outputs (ledger rows, and the folder and download
    actions the executor performs for the dispatched posts). */
module Driver {
  import opened Wrappers
  import opened Settings
  import opened Media
  import Ledger
  import Dates

  /** A post handed to the executor, with the folder it is stored in. */
  datatype Dispatch = Dispatch(post: PostRecord, folder: string)

  /** The loop's state: the current destination folder (`subreddit`), the
      `downloaded` counter, the rows appended to the ledger file and the
      posts dispatched to the executor, in order. */
  datatype State = State(folder: string, downloaded: nat, rows: seq<Ledger.Row>, dispatched: seq<Dispatch>)

  /** One iteration's result; `stop` is the `break` at the cap. */
  datatype StepResult = StepResult(state: State, stop: bool)

  /** The end of a run: the final state, how many posts were taken from the
      stream, and whether the run ended at the cap (otherwise the stream
      ran out). */
  datatype Outcome = Outcome(final: State, consumed: nat, capReached: bool)

  function Max(a: int, b: int): int
  {
    if a >= b then a else b
  }

  predicate Distinct(xs: seq<string>)
  {
    forall i, j :: 0 <= i < j < |xs| ==> xs[i] != xs[j]
  }

  /** `list.index`: the position of the first occurrence of `x`. */
  function IndexOf(xs: seq<string>, x: string): (i: nat)
    requires x in xs
    ensures i < |xs| && xs[i] == x
    ensures forall j :: 0 <= j < i ==> xs[j] != x
    decreases |xs|
  {
    if xs[0] == x then 0 else 1 + IndexOf(xs[1..], x)
  }

  /** The folder switch at the end of an iteration: the entry after the
      first occurrence of the current folder, wrapping to the first entry. */
  function NextFolder(subs: seq<string>, folder: string): (next: string)
    requires folder in subs
    ensures next in subs
    ensures next == subs[(IndexOf(subs, folder) + 1) % |subs|]
  {
    var i := IndexOf(subs, folder);
    if i == |subs| - 1 then
      ModUnique(i + 1, |subs|, 1, 0);
      subs[0]
    else
      ModUnique(i + 1, |subs|, 0, i + 1);
      subs[i + 1]
  }

  /** The folder `k` switches after `folder`. */
  function Rotate(subs: seq<string>, folder: string, k: nat): (f: string)
    requires folder in subs
    ensures f in subs
    decreases k
  {
    if k == 0 then folder else Rotate(subs, NextFolder(subs, folder), k - 1)
  }

  lemma {:induction false} RotateSucc(subs: seq<string>, folder: string, k: nat)
    requires folder in subs
    ensures Rotate(subs, folder, k + 1) == NextFolder(subs, Rotate(subs, folder, k))
    decreases k
  {
    if k > 0 {
      RotateSucc(subs, NextFolder(subs, folder), k - 1);
    }
  }

  lemma MulAtLeast(d: int, n: int)
    requires n > 0 && d >= 1
    ensures d * n >= n
  {
  }

  /** Euclidean remainder is determined by any quotient-remainder split. */
  lemma ModUnique(x: int, n: int, q: int, r: int)
    requires n > 0 && 0 <= r < n && x == q * n + r
    ensures x % n == r
  {
    var d := q - x / n;
    assert d * n == x % n - r;
    if d >= 1 {
      MulAtLeast(d, n);
      assert false;
    } else if d <= -1 {
      MulAtLeast(-d, n);
      assert false;
    }
  }

  lemma ModSucc(k: nat, n: nat)
    requires n > 0
    ensures (k % n + 1) % n == (k + 1) % n
  {
    var q := k / n;
    var r := k % n;
    if r + 1 < n {
      ModUnique(r + 1, n, 0, r + 1);
      ModUnique(k + 1, n, q, r + 1);
    } else {
      ModUnique(r + 1, n, 1, 0);
      ModUnique(k + 1, n, q + 1, 0);
    }
  }

  /** In a list without repeats, an entry is found at its own position. */
  lemma IndexOfDistinct(subs: seq<string>, i: nat)
    requires Distinct(subs) && i < |subs|
    ensures IndexOf(subs, subs[i]) == i
  {
  }

  lemma RotateFromFolder(subs: seq<string>, start: string, k: nat, f: string)
    requires start in subs && f in subs
    requires Rotate(subs, start, k) == f
    ensures Rotate(subs, start, k + 1) == NextFolder(subs, f)
  {
    RotateSucc(subs, start, k);
  }

  /** In a list without repeats, the folder after entry i is entry i + 1,
      wrapping around. */
  lemma NextOfEntry(subs: seq<string>, i: nat)
    requires Distinct(subs) && i < |subs|
    ensures NextFolder(subs, subs[i]) == subs[(i + 1) % |subs|]
  {
    IndexOfDistinct(subs, i);
  }

  /** Round robin: with distinct subreddit names, the folder of the k-th
      iteration (counting from 0) is `SUBREDDITS[k % n]`. */
  lemma {:induction false} RoundRobin(subs: seq<string>, k: nat)
    requires |subs| > 0 && Distinct(subs)
    ensures Rotate(subs, subs[0], k) == subs[k % |subs|]
    decreases k
  {
    if k > 0 {
      var i := (k - 1) % |subs|;
      RoundRobin(subs, k - 1);
      RotateFromFolder(subs, subs[0], k - 1, subs[i]);
      NextOfEntry(subs, i);
      ModSucc(k - 1, |subs|);
    } else {
      ModUnique(0, |subs|, 0, 0);
    }
  }

  /** With a repeated name the cycle is shorter than the list: from
      `["a", "b", "a"]` the folders are a, b, a, b, ... because `list.index`
      always finds the first "a". */
  lemma RepeatedNameShortensCycle()
    ensures Rotate(["a", "b", "a"], "a", 2) == "a"
    ensures Rotate(["a", "b", "a"], "a", 3) == "b"
    ensures Rotate(["a", "b", "a"], "a", 3) != ["a", "b", "a"][3 % 3]
  {
    var subs := ["a", "b", "a"];
    assert IndexOf(subs, "a") == 0;
    assert IndexOf(subs, "b") == 1;
    assert NextFolder(subs, "a") == "b";
    assert NextFolder(subs, "b") == "a";
    RotateSucc(subs, "a", 0);
    RotateSucc(subs, "a", 1);
    RotateSucc(subs, "a", 2);
  }

  /** The ledger row a post appends (none for a post already in the startup
      ledger). */
  function RowsFor(p: PostRecord, ledger: seq<string>, today: Dates.Date): seq<Ledger.Row>
  {
    if p.id in ledger then [] else [Ledger.Row(p.id, today)]
  }

  /** The dispatch a post causes in `folder` (none for a post already in
      the startup ledger). */
  function DispatchFor(p: PostRecord, ledger: seq<string>, folder: string): seq<Dispatch>
  {
    if p.id in ledger then [] else [Dispatch(p, folder)]
  }

  function Concat<T>(xss: seq<seq<T>>): seq<T>
    decreases |xss|
  {
    if |xss| == 0 then [] else xss[0] + Concat(xss[1..])
  }

  /** The rows a stretch of posts appends: each post's row, in stream
      order. */
  function RowsOf(posts: seq<PostRecord>, ledger: seq<string>, today: Dates.Date): seq<Ledger.Row>
    decreases |posts|
  {
    if |posts| == 0 then [] else RowsFor(posts[0], ledger, today) + RowsOf(posts[1..], ledger, today)
  }

  /** The dispatches of a stretch of posts starting in folder `start`, the
      folder moving on after every post. */
  function DispatchesOf(subs: seq<string>, ledger: seq<string>, start: string, posts: seq<PostRecord>): seq<Dispatch>
    requires start in subs
    decreases |posts|
  {
    if |posts| == 0 then []
    else DispatchFor(posts[0], ledger, start) + DispatchesOf(subs, ledger, NextFolder(subs, start), posts[1..])
  }

  lemma RowsOfCons(p: PostRecord, rest: seq<PostRecord>, ledger: seq<string>, today: Dates.Date)
    ensures RowsOf([p] + rest, ledger, today) == RowsFor(p, ledger, today) + RowsOf(rest, ledger, today)
  {
    assert ([p] + rest)[1..] == rest;
  }

  lemma DispatchesOfCons(subs: seq<string>, ledger: seq<string>, start: string, p: PostRecord, rest: seq<PostRecord>)
    requires start in subs
    ensures DispatchesOf(subs, ledger, start, [p] + rest) ==
      DispatchFor(p, ledger, start) + DispatchesOf(subs, ledger, NextFolder(subs, start), rest)
  {
    assert ([p] + rest)[1..] == rest;
  }

  /** Index-wise reading of the dispatches: post k of the stretch is stored
      in the folder reached after k switches from `start`. */
  lemma {:induction false} DispatchesOfIndexed(subs: seq<string>, ledger: seq<string>, start: string, posts: seq<PostRecord>)
    requires start in subs
    ensures DispatchesOf(subs, ledger, start, posts) ==
      Concat(seq(|posts|, k requires 0 <= k < |posts| => DispatchFor(posts[k], ledger, Rotate(subs, start, k))))
    decreases |posts|
  {
    var xs := seq(|posts|, k requires 0 <= k < |posts| => DispatchFor(posts[k], ledger, Rotate(subs, start, k)));
    if |posts| > 0 {
      var next := NextFolder(subs, start);
      var rest := posts[1..];
      DispatchesOfIndexed(subs, ledger, next, rest);
      assert xs[1..] == seq(|rest|, k requires 0 <= k < |rest| => DispatchFor(rest[k], ledger, Rotate(subs, next, k)));
    }
  }

  /** Every dispatch of a stretch of posts lands in a configured folder. */
  lemma {:induction false} DispatchesInFolders(subs: seq<string>, ledger: seq<string>, start: string, posts: seq<PostRecord>)
    requires start in subs
    ensures forall d :: d in DispatchesOf(subs, ledger, start, posts) ==> d.folder in subs
    decreases |posts|
  {
    if |posts| > 0 {
      DispatchesInFolders(subs, ledger, NextFolder(subs, start), posts[1..]);
    }
  }

  /** A stretch of posts dispatches only posts outside the startup ledger. */
  lemma {:induction false} DispatchesAreNew(subs: seq<string>, ledger: seq<string>, start: string, posts: seq<PostRecord>)
    requires start in subs
    ensures forall d :: d in DispatchesOf(subs, ledger, start, posts) ==> d.post.id !in ledger
    decreases |posts|
  {
    if |posts| > 0 {
      DispatchesAreNew(subs, ledger, NextFolder(subs, start), posts[1..]);
    }
  }

  /** An element of a concatenation comes from one of the pieces. */
  lemma {:induction false} ConcatMember<T>(xss: seq<seq<T>>, x: T)
    requires x in Concat(xss)
    ensures exists i :: 0 <= i < |xss| && x in xss[i]
    decreases |xss|
  {
    if x !in xss[0] {
      ConcatMember(xss[1..], x);
      var i :| 0 <= i < |xss[1..]| && x in xss[1..][i];
      assert x in xss[i + 1];
    }
  }

  /** The rows of a stretch of posts: only posts outside the startup ledger
      append, each exactly one row dated today. */
  lemma {:induction false} RowsOfMembers(posts: seq<PostRecord>, ledger: seq<string>, today: Dates.Date)
    ensures forall r :: r in RowsOf(posts, ledger, today) ==> r.id !in ledger && r.date == today
    ensures forall k :: 0 <= k < |posts| && posts[k].id !in ledger ==>
      Ledger.Row(posts[k].id, today) in RowsOf(posts, ledger, today)
    ensures |RowsOf(posts, ledger, today)| <= |posts|
    ensures (forall k :: 0 <= k < |posts| ==> posts[k].id !in ledger) ==> |RowsOf(posts, ledger, today)| == |posts|
    decreases |posts|
  {
    if |posts| > 0 {
      assert posts == [posts[0]] + posts[1..];
      RowsOfCons(posts[0], posts[1..], ledger, today);
      RowsOfMembers(posts[1..], ledger, today);
    }
  }

  /** One iteration of the loop body. A post already in the startup ledger
      only moves the folder on. Any other post, supported or not, is
      carried out in the current folder, appends one row `(id, today)` and
      adds one to the counter; if the counter then reaches the cap the loop
      breaks without moving the folder. */
  function Step(cfg: Config, ledger: seq<string>, today: Dates.Date, st: State, p: PostRecord): (r: StepResult)
    requires st.folder in cfg.subreddits
    ensures r.state.folder in cfg.subreddits
    ensures p.id in ledger ==> !r.stop && r.state == st.(folder := NextFolder(cfg.subreddits, st.folder))
    ensures p.id !in ledger ==>
      && r.state.downloaded == st.downloaded + 1
      && r.state.rows == st.rows + [Ledger.Row(p.id, today)]
      && r.state.dispatched == st.dispatched + [Dispatch(p, st.folder)]
    ensures r.stop <==> p.id !in ledger && CapReached(cfg.limit, st.downloaded + 1)
    ensures r.state.folder == if r.stop then st.folder else NextFolder(cfg.subreddits, st.folder)
  {
    if p.id !in ledger then
      var recorded := State(
        st.folder,
        st.downloaded + 1,
        st.rows + [Ledger.Row(p.id, today)],
        st.dispatched + [Dispatch(p, st.folder)]);
      if CapReached(cfg.limit, recorded.downloaded) then StepResult(recorded, true)
      else StepResult(recorded.(folder := NextFolder(cfg.subreddits, st.folder)), false)
    else
      StepResult(st.(folder := NextFolder(cfg.subreddits, st.folder)), false)
  }

  /** The loop over the post stream. It ends either at the cap, right after
      the post that reached it, or when the stream runs out. The counter
      always equals the number of rows appended. */
  function Run(cfg: Config, ledger: seq<string>, today: Dates.Date, st: State, posts: seq<PostRecord>): (o: Outcome)
    requires st.folder in cfg.subreddits
    ensures o.consumed <= |posts|
    ensures o.final.folder in cfg.subreddits
    ensures !o.capReached ==> o.consumed == |posts|
    ensures o.capReached ==>
      0 < o.consumed && posts[o.consumed - 1].id !in ledger && CapReached(cfg.limit, o.final.downloaded)
    ensures o.final.downloaded + |st.rows| == st.downloaded + |o.final.rows|
    ensures |o.final.dispatched| + |st.rows| == |st.dispatched| + |o.final.rows|
    decreases |posts|
  {
    if |posts| == 0 then Outcome(st, 0, false)
    else
      var s := Step(cfg, ledger, today, st, posts[0]);
      if s.stop then Outcome(s.state, 1, true)
      else
        var o := Run(cfg, ledger, today, s.state, posts[1..]);
        Outcome(o.final, o.consumed + 1, o.capReached)
  }

  /** Appending in two steps is appending once. */
  lemma AppendAfter<T>(a: seq<T>, one: seq<T>, mid: seq<T>, tail: seq<T>, fin: seq<T>, whole: seq<T>)
    requires mid == a + one && fin == mid + tail && whole == one + tail
    ensures fin == a + whole
  {
  }

  /** One iteration appends exactly its post's row and dispatch. */
  lemma StepAppends(cfg: Config, ledger: seq<string>, today: Dates.Date, st: State, p: PostRecord)
    requires st.folder in cfg.subreddits
    ensures var r := Step(cfg, ledger, today, st, p);
      && r.state.rows == st.rows + RowsFor(p, ledger, today)
      && r.state.dispatched == st.dispatched + DispatchFor(p, ledger, st.folder)
  {
    if p.id in ledger {
      assert st.rows + [] == st.rows;
      assert st.dispatched + [] == st.dispatched;
    }
  }

  lemma PrefixCons(posts: seq<PostRecord>, n: nat)
    requires 0 < n <= |posts|
    ensures posts[..n] == [posts[0]] + posts[1..][..n - 1]
  {
  }

  lemma RowsOfPrefix(posts: seq<PostRecord>, n: nat, ledger: seq<string>, today: Dates.Date)
    requires 0 < n <= |posts|
    ensures RowsOf(posts[..n], ledger, today) == RowsFor(posts[0], ledger, today) + RowsOf(posts[1..][..n - 1], ledger, today)
  {
    PrefixCons(posts, n);
    RowsOfCons(posts[0], posts[1..][..n - 1], ledger, today);
  }

  lemma DispatchesOfPrefix(subs: seq<string>, ledger: seq<string>, start: string, posts: seq<PostRecord>, n: nat)
    requires start in subs
    requires 0 < n <= |posts|
    ensures DispatchesOf(subs, ledger, start, posts[..n]) ==
      DispatchFor(posts[0], ledger, start) + DispatchesOf(subs, ledger, NextFolder(subs, start), posts[1..][..n - 1])
  {
    PrefixCons(posts, n);
    DispatchesOfCons(subs, ledger, start, posts[0], posts[1..][..n - 1]);
  }

  /** The iteration that reaches the cap appends the one row of its post. */
  lemma RunRowsAtCap(cfg: Config, ledger: seq<string>, today: Dates.Date, st: State, posts: seq<PostRecord>)
    requires st.folder in cfg.subreddits
    requires |posts| > 0 && Step(cfg, ledger, today, st, posts[0]).stop
    ensures Run(cfg, ledger, today, st, posts).final.rows == st.rows + RowsOf(posts[..1], ledger, today)
  {
    var row := RowsFor(posts[0], ledger, today);
    RowsOfPrefix(posts, 1, ledger, today);
    assert posts[1..][..0] == [];
    assert row + [] == row;
  }

  /** The iteration that reaches the cap dispatches its post in the current
      folder. */
  lemma RunDispatchesAtCap(cfg: Config, ledger: seq<string>, today: Dates.Date, st: State, posts: seq<PostRecord>)
    requires st.folder in cfg.subreddits
    requires |posts| > 0 && Step(cfg, ledger, today, st, posts[0]).stop
    ensures Run(cfg, ledger, today, st, posts).final.dispatched ==
      st.dispatched + DispatchesOf(cfg.subreddits, ledger, st.folder, posts[..1])
  {
    var one := DispatchFor(posts[0], ledger, st.folder);
    DispatchesOfPrefix(cfg.subreddits, ledger, st.folder, posts, 1);
    assert posts[1..][..0] == [];
    assert one + [] == one;
  }

  /** A non-capping iteration prepends its post's row to the rows of the
      rest of the run. */
  lemma RunRowsStep(cfg: Config, ledger: seq<string>, today: Dates.Date, st: State, posts: seq<PostRecord>)
    requires st.folder in cfg.subreddits
    requires |posts| > 0 && !Step(cfg, ledger, today, st, posts[0]).stop
    requires var s := Step(cfg, ledger, today, st, posts[0]);
      var o' := Run(cfg, ledger, today, s.state, posts[1..]);
      o'.final.rows == s.state.rows + RowsOf(posts[1..][..o'.consumed], ledger, today)
    ensures var o := Run(cfg, ledger, today, st, posts);
      o.final.rows == st.rows + RowsOf(posts[..o.consumed], ledger, today)
  {
    var s := Step(cfg, ledger, today, st, posts[0]);
    var o' := Run(cfg, ledger, today, s.state, posts[1..]);
    var o := Run(cfg, ledger, today, st, posts);
    assert o == Outcome(o'.final, o'.consumed + 1, o'.capReached);
    StepAppends(cfg, ledger, today, st, posts[0]);
    RowsOfPrefix(posts, o.consumed, ledger, today);
    AppendAfter(st.rows, RowsFor(posts[0], ledger, today), s.state.rows,
      RowsOf(posts[1..][..o'.consumed], ledger, today), o.final.rows, RowsOf(posts[..o.consumed], ledger, today));
  }

  /** The rows a run appends: exactly those of the consumed posts, in
      stream order. */
  lemma {:induction false} RunRows(cfg: Config, ledger: seq<string>, today: Dates.Date, st: State, posts: seq<PostRecord>)
    requires st.folder in cfg.subreddits
    ensures var o := Run(cfg, ledger, today, st, posts);
      o.final.rows == st.rows + RowsOf(posts[..o.consumed], ledger, today)
    decreases |posts|
  {
    if |posts| == 0 {
      assert posts[..0] == [];
    } else if Step(cfg, ledger, today, st, posts[0]).stop {
      RunRowsAtCap(cfg, ledger, today, st, posts);
    } else {
      RunRows(cfg, ledger, today, Step(cfg, ledger, today, st, posts[0]).state, posts[1..]);
      RunRowsStep(cfg, ledger, today, st, posts);
    }
  }

  /** A non-capping iteration prepends its post's dispatch, in the current
      folder, to the dispatches of the rest of the run. */
  lemma RunDispatchesStep(cfg: Config, ledger: seq<string>, today: Dates.Date, st: State, posts: seq<PostRecord>)
    requires st.folder in cfg.subreddits
    requires |posts| > 0 && !Step(cfg, ledger, today, st, posts[0]).stop
    requires var s := Step(cfg, ledger, today, st, posts[0]);
      var o' := Run(cfg, ledger, today, s.state, posts[1..]);
      o'.final.dispatched == s.state.dispatched + DispatchesOf(cfg.subreddits, ledger, s.state.folder, posts[1..][..o'.consumed])
    ensures var o := Run(cfg, ledger, today, st, posts);
      o.final.dispatched == st.dispatched + DispatchesOf(cfg.subreddits, ledger, st.folder, posts[..o.consumed])
  {
    var s := Step(cfg, ledger, today, st, posts[0]);
    var o' := Run(cfg, ledger, today, s.state, posts[1..]);
    var o := Run(cfg, ledger, today, st, posts);
    var subs := cfg.subreddits;
    assert o == Outcome(o'.final, o'.consumed + 1, o'.capReached);
    assert s.state.folder == NextFolder(subs, st.folder);
    StepAppends(cfg, ledger, today, st, posts[0]);
    DispatchesOfPrefix(subs, ledger, st.folder, posts, o.consumed);
    AppendAfter(st.dispatched, DispatchFor(posts[0], ledger, st.folder), s.state.dispatched,
      DispatchesOf(subs, ledger, s.state.folder, posts[1..][..o'.consumed]), o.final.dispatched,
      DispatchesOf(subs, ledger, st.folder, posts[..o.consumed]));
  }

  /** The posts a run dispatches: exactly the consumed posts outside the
      startup ledger, in stream order, the k-th post stored in the folder k
      switches after the start folder. */
  lemma {:induction false} RunDispatches(cfg: Config, ledger: seq<string>, today: Dates.Date, st: State, posts: seq<PostRecord>)
    requires st.folder in cfg.subreddits
    ensures var o := Run(cfg, ledger, today, st, posts);
      o.final.dispatched == st.dispatched + DispatchesOf(cfg.subreddits, ledger, st.folder, posts[..o.consumed])
    decreases |posts|
  {
    if |posts| == 0 {
      assert posts[..0] == [];
    } else if Step(cfg, ledger, today, st, posts[0]).stop {
      RunDispatchesAtCap(cfg, ledger, today, st, posts);
    } else {
      RunDispatches(cfg, ledger, today, Step(cfg, ledger, today, st, posts[0]).state, posts[1..]);
      RunDispatchesStep(cfg, ledger, today, st, posts);
    }
  }

  /** One switch before the rest of the run: if the rest ends `k` switches
      after `g`, the whole run ends `k + 1` switches after `f`. */
  lemma FolderAfterStep(subs: seq<string>, f: string, g: string, cap: bool, consumed: nat, fin: string)
    requires f in subs && g == NextFolder(subs, f)
    requires cap ==> consumed >= 1
    requires fin == Rotate(subs, g, if cap then consumed - 1 else consumed)
    ensures fin == Rotate(subs, f, if cap then consumed else consumed + 1)
  {
  }

  /** A non-capping iteration hands the rest of the stream to the rest of
      the run, which then counts one more post. */
  lemma RunUnfold(cfg: Config, ledger: seq<string>, today: Dates.Date, st: State, posts: seq<PostRecord>)
    requires st.folder in cfg.subreddits
    requires |posts| > 0 && !Step(cfg, ledger, today, st, posts[0]).stop
    ensures var o' := Run(cfg, ledger, today, Step(cfg, ledger, today, st, posts[0]).state, posts[1..]);
      Run(cfg, ledger, today, st, posts) == Outcome(o'.final, o'.consumed + 1, o'.capReached)
  {
  }

  /** A non-capping iteration switches the folder once before the rest of
      the run. */
  lemma RunFolderStep(cfg: Config, ledger: seq<string>, today: Dates.Date, st: State, posts: seq<PostRecord>)
    requires st.folder in cfg.subreddits
    requires |posts| > 0 && !Step(cfg, ledger, today, st, posts[0]).stop
    requires var s := Step(cfg, ledger, today, st, posts[0]);
      var o' := Run(cfg, ledger, today, s.state, posts[1..]);
      o'.final.folder == Rotate(cfg.subreddits, s.state.folder, if o'.capReached then o'.consumed - 1 else o'.consumed)
    ensures var o := Run(cfg, ledger, today, st, posts);
      o.final.folder == Rotate(cfg.subreddits, st.folder, if o.capReached then o.consumed - 1 else o.consumed)
  {
    var s := Step(cfg, ledger, today, st, posts[0]);
    var o' := Run(cfg, ledger, today, s.state, posts[1..]);
    RunUnfold(cfg, ledger, today, st, posts);
    FolderAfterStep(cfg.subreddits, st.folder, s.state.folder, o'.capReached, o'.consumed, o'.final.folder);
  }

  /** The folder switches once per iteration, except in the iteration that
      hits the cap. */
  lemma {:induction false} RunFolder(cfg: Config, ledger: seq<string>, today: Dates.Date, st: State, posts: seq<PostRecord>)
    requires st.folder in cfg.subreddits
    ensures var o := Run(cfg, ledger, today, st, posts);
      o.final.folder == Rotate(cfg.subreddits, st.folder, if o.capReached then o.consumed - 1 else o.consumed)
    decreases |posts|
  {
    if |posts| > 0 && !Step(cfg, ledger, today, st, posts[0]).stop {
      RunFolder(cfg, ledger, today, Step(cfg, ledger, today, st, posts[0]).state, posts[1..]);
      RunFolderStep(cfg, ledger, today, st, posts);
    }
  }

  /** The cap counts only new posts and is checked right after each one:
      with `DOWNLOAD_LIMIT == n`, a run starting below `max(1, n)` stops
      exactly when the counter reaches `max(1, n)`. */
  lemma {:induction false} RunStopsAtCap(cfg: Config, ledger: seq<string>, today: Dates.Date, st: State, posts: seq<PostRecord>, n: int)
    requires st.folder in cfg.subreddits
    requires cfg.limit == Number(n)
    requires st.downloaded < Max(1, n)
    ensures var o := Run(cfg, ledger, today, st, posts);
      && (o.capReached ==> o.final.downloaded == Max(1, n))
      && (!o.capReached ==> o.final.downloaded < Max(1, n))
    decreases |posts|
  {
    if |posts| > 0 {
      var s := Step(cfg, ledger, today, st, posts[0]);
      if !s.stop {
        RunStopsAtCap(cfg, ledger, today, s.state, posts[1..], n);
      }
    }
  }

  /** A stretch of posts that are all in the startup ledger changes nothing
      but the folder. */
  lemma {:induction false} RecordedPostsSkipped(cfg: Config, ledger: seq<string>, today: Dates.Date, st: State, posts: seq<PostRecord>)
    requires st.folder in cfg.subreddits
    requires forall k :: 0 <= k < |posts| ==> posts[k].id in ledger
    ensures var o := Run(cfg, ledger, today, st, posts);
      !o.capReached && o.final == st.(folder := Rotate(cfg.subreddits, st.folder, |posts|))
    decreases |posts|
  {
    if |posts| > 0 {
      var s := Step(cfg, ledger, today, st, posts[0]);
      RecordedPostsSkipped(cfg, ledger, today, s.state, posts[1..]);
    }
  }

  /** The folders `main` creates at startup, one per subreddit. */
  function StartupFolders(subs: seq<string>): seq<Action>
  {
    seq(|subs|, i requires 0 <= i < |subs| => EnsureFolder([subs[i]]))
  }

  /** `main`: load the ledger once, create the subreddit folders, then run
      the loop over the stream of the FIRST subreddit only, starting in its
      folder with the counter at 0. `fetch` stands for the feed client. An
      empty subreddit list fails on `SUBREDDITS[0]` with `IndexError`. */
  function Main(cfg: Config, ledgerFile: Option<seq<seq<string>>>, today: Dates.Date, fetch: string -> seq<PostRecord>): (r: Result<Outcome, Dates.PyError>)
    ensures r.Failure? <==> cfg.subreddits == []
    ensures r.Failure? ==> r.error == Dates.IndexError
    ensures r.Success? ==> r.value.final.downloaded == |r.value.final.rows|
    ensures r.Success? ==> |r.value.final.dispatched| == |r.value.final.rows|
  {
    var subs := cfg.subreddits;
    if |subs| == 0 then Failure(Dates.IndexError)
    else Success(Run(cfg, Ledger.Load(ledgerFile), today, State(subs[0], 0, [], []), fetch(subs[0])))
  }

  /** The executor's side of a dispatch: classify the post and carry out the
      plan in the dispatch's folder. */
  function Perform(d: Dispatch): seq<Action>
  {
    Execute(Classify(d.post), PostNames(d.post), d.folder)
  }

  /** Everything a run does to the filesystem: the startup folders, then the
      actions of each dispatch in order. */
  function RunActions(subs: seq<string>, dispatched: seq<Dispatch>): (acts: seq<Action>)
    ensures StartupFolders(subs) <= acts
    ensures dispatched == [] ==> acts == StartupFolders(subs)
  {
    StartupFolders(subs) + Concat(seq(|dispatched|, i requires 0 <= i < |dispatched| => Perform(dispatched[i])))
  }

  /** No segment after the first names the parent folder, so a path
      resolves inside the folder its first segment names. */
  predicate StaysBelowFirst(path: seq<string>)
  {
    forall i :: 1 <= i < |path| ==> path[i] != ".."
  }

  /** When every dispatch is in a configured folder, the first path segment
      of every folder the run creates and every file it writes is a
      configured subreddit. A second segment appears only for a gallery and
      is then the title part of a dispatched post, so the paths stay below
      the subreddit folders unless some dispatched title part is `..`. */
  lemma RunActionsInFolders(subs: seq<string>, dispatched: seq<Dispatch>)
    requires forall d :: d in dispatched ==> d.folder in subs
    ensures forall a :: a in RunActions(subs, dispatched) ==> ActionShape(subs, dispatched, a)
    ensures (forall d :: d in dispatched ==> TitlePart(d.post) != "..") ==>
      forall a :: a in RunActions(subs, dispatched) ==> StaysBelowFirst(a.path)
  {
    var xss: seq<seq<Action>> := seq(|dispatched|, i requires 0 <= i < |dispatched| => Perform(dispatched[i]));
    assert RunActions(subs, dispatched) == StartupFolders(subs) + Concat(xss);
    StartupInFolders(subs);
    forall a: Action | a in RunActions(subs, dispatched)
      ensures ActionShape(subs, dispatched, a)
    {
      if a in Concat(xss) {
        ConcatMember(xss, a);
        var i :| 0 <= i < |xss| && a in xss[i];
        PerformInFolder(dispatched[i], subs);
        assert dispatched[i] in dispatched;
      }
    }
    if forall d :: d in dispatched ==> TitlePart(d.post) != ".." {
      forall a: Action | a in RunActions(subs, dispatched)
        ensures StaysBelowFirst(a.path)
      {
        ShapeStaysBelow(subs, dispatched, a);
      }
    }
  }

  /** An action of that shape stays below its first segment when no
      dispatched title part is `..`. */
  lemma ShapeStaysBelow(subs: seq<string>, dispatched: seq<Dispatch>, a: Action)
    requires ActionShape(subs, dispatched, a)
    requires forall d :: d in dispatched ==> TitlePart(d.post) != ".."
    ensures StaysBelowFirst(a.path)
  {
    forall i | 1 <= i < |a.path|
      ensures a.path[i] != ".."
    {
      assert i == 1;
      var d :| d in dispatched && a.path[1] == TitlePart(d.post);
      assert TitlePart(d.post) != "..";
    }
  }

  /** Where an action of a run may act: its first path segment is a
      configured subreddit, and a second segment, the only other one, is
      the title part of a dispatched post. */
  predicate ActionShape(subs: seq<string>, dispatched: seq<Dispatch>, a: Action)
  {
    && |a.path| >= 1 && a.path[0] in subs
    && |a.path| <= 2
    && (|a.path| == 2 ==> exists d :: d in dispatched && a.path[1] == TitlePart(d.post))
  }

  /** The startup actions create exactly the configured folders. */
  lemma StartupInFolders(subs: seq<string>)
    ensures forall a :: a in StartupFolders(subs) ==> |a.path| == 1 && a.path[0] in subs
  {
    forall a: Action | a in StartupFolders(subs)
      ensures |a.path| == 1 && a.path[0] in subs
    {
      var i :| 0 <= i < |subs| && StartupFolders(subs)[i] == a;
    }
  }

  /** A dispatch acts in its own folder, or in the subfolder named after its
      title part. */
  lemma PerformInFolder(d: Dispatch, subs: seq<string>)
    requires d.folder in subs
    ensures forall a :: a in Perform(d) ==>
      && |a.path| >= 1 && a.path[0] in subs
      && |a.path| <= 2
      && (|a.path| == 2 ==> a.path[1] == TitlePart(d.post))
  {
    forall a: Action | a in Perform(d)
      ensures |a.path| >= 1 && a.path[0] in subs && |a.path| <= 2
      ensures |a.path| == 2 ==> a.path[1] == TitlePart(d.post)
    {
      var k :| 0 <= k < |Perform(d)| && Perform(d)[k] == a;
    }
  }

  /** The posts come from the first subreddit's feed whatever the folder
      rotation does: feeds of other subreddits are never read. */
  lemma MainReadsFirstFeedOnly(cfg: Config, ledgerFile: Option<seq<seq<string>>>, today: Dates.Date,
                               fetch1: string -> seq<PostRecord>, fetch2: string -> seq<PostRecord>)
    requires |cfg.subreddits| > 0
    requires fetch1(cfg.subreddits[0]) == fetch2(cfg.subreddits[0])
    ensures Main(cfg, ledgerFile, today, fetch1) == Main(cfg, ledgerFile, today, fetch2)
  {
  }

  /** Dedup within one run: every row appended and every post dispatched is
      for a post that was not in the startup ledger, rows are dated today,
      and every consumed post outside the startup ledger has its row. */
  lemma MainRecordsNewPosts(cfg: Config, ledgerFile: Option<seq<seq<string>>>, today: Dates.Date, fetch: string -> seq<PostRecord>)
    requires |cfg.subreddits| > 0
    ensures var o := Main(cfg, ledgerFile, today, fetch).value;
      var posts := fetch(cfg.subreddits[0]);
      && o.consumed <= |posts|
      && (forall r :: r in o.final.rows ==> r.id !in Ledger.Load(ledgerFile) && r.date == today)
      && (forall k :: 0 <= k < o.consumed && posts[k].id !in Ledger.Load(ledgerFile) ==>
            Ledger.Row(posts[k].id, today) in o.final.rows)
      && (forall d :: d in o.final.dispatched ==> d.post.id !in Ledger.Load(ledgerFile))
  {
    var subs := cfg.subreddits;
    var posts := fetch(subs[0]);
    var ledger := Ledger.Load(ledgerFile);
    var st := State(subs[0], 0, [], []);
    var o := Run(cfg, ledger, today, st, posts);
    RunRows(cfg, ledger, today, st, posts);
    RowsOfMembers(posts[..o.consumed], ledger, today);
    assert forall k :: 0 <= k < o.consumed ==> posts[..o.consumed][k] == posts[k];
    RunDispatches(cfg, ledger, today, st, posts);
    DispatchesAreNew(subs, ledger, subs[0], posts[..o.consumed]);
  }

  /** The cap: with `DOWNLOAD_LIMIT == n` a run ends at the cap exactly when
      `max(1, n)` posts were downloaded (a cap of 0 or below still lets one
      post through, because the test follows the increment), and never
      downloads more. */
  lemma MainStopsAtCap(cfg: Config, ledgerFile: Option<seq<seq<string>>>, today: Dates.Date, fetch: string -> seq<PostRecord>, n: int)
    requires |cfg.subreddits| > 0
    requires cfg.limit == Number(n)
    ensures var o := Main(cfg, ledgerFile, today, fetch).value;
      && o.final.downloaded <= Max(1, n)
      && (o.capReached <==> o.final.downloaded == Max(1, n))
  {
    var subs := cfg.subreddits;
    RunStopsAtCap(cfg, Ledger.Load(ledgerFile), today, State(subs[0], 0, [], []), fetch(subs[0]), n);
  }

  /** Without a numeric cap (key absent or `null`) the run reads the whole
      stream and records every post outside the startup ledger. */
  lemma UncappedRunReadsAll(cfg: Config, ledgerFile: Option<seq<seq<string>>>, today: Dates.Date, fetch: string -> seq<PostRecord>)
    requires |cfg.subreddits| > 0
    requires !cfg.limit.Number?
    ensures var o := Main(cfg, ledgerFile, today, fetch).value;
      && !o.capReached
      && o.consumed == |fetch(cfg.subreddits[0])|
      && o.final.rows == RowsOf(fetch(cfg.subreddits[0]), Ledger.Load(ledgerFile), today)
  {
    var subs := cfg.subreddits;
    var posts := fetch(subs[0]);
    RunRows(cfg, Ledger.Load(ledgerFile), today, State(subs[0], 0, [], []), posts);
    assert posts[..|posts|] == posts;
  }

  /** With a cap of 2 and three new posts, two are recorded and the run ends
      at the cap before the third is looked at. */
  lemma CapOfTwoStopsBeforeThird(cfg: Config, ledgerFile: Option<seq<seq<string>>>, today: Dates.Date, fetch: string -> seq<PostRecord>)
    requires |cfg.subreddits| > 0
    requires cfg.limit == Number(2)
    requires |fetch(cfg.subreddits[0])| == 3
    requires forall k :: 0 <= k < 3 ==> fetch(cfg.subreddits[0])[k].id !in Ledger.Load(ledgerFile)
    ensures var o := Main(cfg, ledgerFile, today, fetch).value;
      o.capReached && o.consumed == 2 && |o.final.rows| == 2
  {
    var subs := cfg.subreddits;
    var posts := fetch(subs[0]);
    var ledger := Ledger.Load(ledgerFile);
    var st := State(subs[0], 0, [], []);
    var o := Run(cfg, ledger, today, st, posts);
    MainStopsAtCap(cfg, ledgerFile, today, fetch, 2);
    RunRows(cfg, ledger, today, st, posts);
    RowsOfMembers(posts[..o.consumed], ledger, today);
  }

  /** The program never adds to the in-memory ledger during a run, so a post
      that the stream yields twice is recorded (and downloaded) twice. */
  lemma RepeatedPostRecordedTwice(cfg: Config, ledger: seq<string>, today: Dates.Date, st: State, p: PostRecord)
    requires st.folder in cfg.subreddits
    requires !cfg.limit.Number? || cfg.limit.n >= st.downloaded + 2
    requires p.id !in ledger
    ensures Run(cfg, ledger, today, st, [p, p]).final.rows == st.rows + [Ledger.Row(p.id, today), Ledger.Row(p.id, today)]
  {
    var posts := [p, p];
    RunRows(cfg, ledger, today, st, posts);
    assert posts[..2] == [p] + [p];
    RowsOfCons(p, [p], ledger, today);
    assert [p] == [p] + [];
    RowsOfCons(p, [], ledger, today);
  }

  /** The rows of two stretches one after the other. */
  lemma {:induction false} RowsOfAppend(a: seq<PostRecord>, b: seq<PostRecord>, ledger: seq<string>, today: Dates.Date)
    ensures RowsOf(a + b, ledger, today) == RowsOf(a, ledger, today) + RowsOf(b, ledger, today)
    decreases |a|
  {
    if |a| == 0 {
      assert a + b == b;
    } else {
      assert (a + b)[0] == a[0];
      assert (a + b)[1..] == a[1..] + b;
      RowsOfAppend(a[1..], b, ledger, today);
    }
  }

  /** The row of a new post k sits right after the rows of the posts before
      it. */
  lemma RowAtPosition(ps: seq<PostRecord>, k: nat, c: nat, ledger: seq<string>, today: Dates.Date)
    requires k < c <= |ps|
    requires ps[k].id !in ledger
    ensures |RowsOf(ps[..k], ledger, today)| < |RowsOf(ps[..c], ledger, today)|
    ensures RowsOf(ps[..c], ledger, today)[|RowsOf(ps[..k], ledger, today)|] == Ledger.Row(ps[k].id, today)
  {
    assert ps[..c] == ps[..k] + ([ps[k]] + ps[k + 1..c]);
    RowsOfAppend(ps[..k], [ps[k]] + ps[k + 1..c], ledger, today);
    RowsOfCons(ps[k], ps[k + 1..c], ledger, today);
  }

  /** The in-memory ledger is never updated during a run, so a new post the
      stream yields at two positions the run consumes is recorded at two
      different rows, whatever lies between the two copies. */
  lemma RepeatedPostRecordedAtEachCopy(cfg: Config, ledger: seq<string>, today: Dates.Date, st: State,
                                       posts: seq<PostRecord>, i: nat, j: nat)
    requires st.folder in cfg.subreddits
    requires i < j < Run(cfg, ledger, today, st, posts).consumed
    requires posts[i].id == posts[j].id && posts[i].id !in ledger
    ensures var rows := Run(cfg, ledger, today, st, posts).final.rows;
      exists a, b :: |st.rows| <= a < b < |rows| &&
        rows[a] == Ledger.Row(posts[i].id, today) && rows[b] == Ledger.Row(posts[i].id, today)
  {
    var o := Run(cfg, ledger, today, st, posts);
    RunRows(cfg, ledger, today, st, posts);
    RowTwice(posts, i, j, o.consumed, ledger, today, st.rows, o.final.rows);
  }

  lemma RowTwice(ps: seq<PostRecord>, i: nat, j: nat, c: nat, ledger: seq<string>, today: Dates.Date,
                 before: seq<Ledger.Row>, rows: seq<Ledger.Row>)
    requires i < j < c <= |ps|
    requires ps[i].id == ps[j].id && ps[i].id !in ledger
    requires rows == before + RowsOf(ps[..c], ledger, today)
    ensures exists a, b ::
              |before| <= a < b < |rows| &&
              rows[a] == Ledger.Row(ps[i].id, today) && rows[b] == Ledger.Row(ps[i].id, today)
  {
    RowAtPosition(ps, i, c, ledger, today);
    RowAtPosition(ps, j, c, ledger, today);
    RowAtPosition(ps, i, j, ledger, today);
    var a := |before| + |RowsOf(ps[..i], ledger, today)|;
    var b := |before| + |RowsOf(ps[..j], ledger, today)|;
    assert rows[a] == Ledger.Row(ps[i].id, today);
    assert rows[b] == Ledger.Row(ps[i].id, today);
  }

  /** The ids of a list of posts, in order. */
  function PostIds(posts: seq<PostRecord>): seq<string>
  {
    seq(|posts|, k requires 0 <= k < |posts| => posts[k].id)
  }

  /** Dedup across restarts: after a run appends its rows to the ledger file,
      a second run whose stream holds only posts the first run consumed
      downloads nothing and appends nothing. */
  lemma SecondRunRepeatsNothing(cfg: Config, file: seq<seq<string>>, today1: Dates.Date, today2: Dates.Date,
                                fetch1: string -> seq<PostRecord>, fetch2: string -> seq<PostRecord>)
    requires |cfg.subreddits| > 0
    requires var o1 := Main(cfg, Some(file), today1, fetch1).value;
      forall j :: 0 <= j < |fetch2(cfg.subreddits[0])| ==>
        fetch2(cfg.subreddits[0])[j].id in PostIds(fetch1(cfg.subreddits[0])[..o1.consumed])
    ensures var o1 := Main(cfg, Some(file), today1, fetch1).value;
      var o2 := Main(cfg, Some(file + Ledger.EncodeAll(o1.final.rows)), today2, fetch2).value;
      && !o2.capReached
      && o2.final.rows == []
      && o2.final.downloaded == 0
      && o2.final.dispatched == []
      && RunActions(cfg.subreddits, o2.final.dispatched) == StartupFolders(cfg.subreddits)
  {
    var subs := cfg.subreddits;
    var o1 := Main(cfg, Some(file), today1, fetch1).value;
    var posts1 := fetch1(subs[0]);
    var ledger2 := Ledger.Load(Some(file + Ledger.EncodeAll(o1.final.rows)));
    ConsumedIdsInNextLedger(cfg, file, today1, fetch1);
    var posts2 := fetch2(subs[0]);
    var consumedIds := PostIds(posts1[..o1.consumed]);
    assert |consumedIds| == o1.consumed;
    forall j | 0 <= j < |posts2|
      ensures posts2[j].id in ledger2
    {
      assert posts2[j].id in consumedIds;
      var k :| 0 <= k < o1.consumed && PostIds(posts1[..o1.consumed])[k] == posts2[j].id;
    }
    RecordedPostsSkipped(cfg, ledger2, today2, State(subs[0], 0, [], []), posts2);
  }

  /** Where a run writes: every folder it creates and every file it
      downloads has a configured subreddit as its first path segment, and
      stays below that folder unless a dispatched gallery post has the title
      part `..` (see `Media.DotDotTitleGallery`). */
  lemma MainWritesInsideSubreddits(cfg: Config, ledgerFile: Option<seq<seq<string>>>, today: Dates.Date, fetch: string -> seq<PostRecord>)
    requires |cfg.subreddits| > 0
    ensures var o := Main(cfg, ledgerFile, today, fetch).value;
      forall a :: a in RunActions(cfg.subreddits, o.final.dispatched) ==> |a.path| >= 1 && a.path[0] in cfg.subreddits
    ensures var o := Main(cfg, ledgerFile, today, fetch).value;
      (forall d :: d in o.final.dispatched ==> TitlePart(d.post) != "..") ==>
        forall a :: a in RunActions(cfg.subreddits, o.final.dispatched) ==> StaysBelowFirst(a.path)
  {
    var subs := cfg.subreddits;
    var ledger := Ledger.Load(ledgerFile);
    var st := State(subs[0], 0, [], []);
    var posts := fetch(subs[0]);
    var o := Run(cfg, ledger, today, st, posts);
    RunDispatches(cfg, ledger, today, st, posts);
    assert o.final.dispatched == DispatchesOf(subs, ledger, subs[0], posts[..o.consumed]);
    DispatchesInFolders(subs, ledger, subs[0], posts[..o.consumed]);
    RunActionsInFolders(subs, o.final.dispatched);
  }

  /** Dedup across restarts, for any later stream: once a run's rows are
      appended to the ledger file, a later run dispatches and records no id
      the earlier run consumed, whether or not the later stream also holds
      new posts. */
  lemma LaterRunRepeatsNoConsumedId(cfg: Config, file: seq<seq<string>>, today1: Dates.Date, today2: Dates.Date,
                                    fetch1: string -> seq<PostRecord>, fetch2: string -> seq<PostRecord>)
    requires |cfg.subreddits| > 0
    ensures var o1 := Main(cfg, Some(file), today1, fetch1).value;
      var o2 := Main(cfg, Some(file + Ledger.EncodeAll(o1.final.rows)), today2, fetch2).value;
      forall k :: 0 <= k < o1.consumed ==>
        && (forall d :: d in o2.final.dispatched ==> d.post.id != fetch1(cfg.subreddits[0])[k].id)
        && (forall r :: r in o2.final.rows ==> r.id != fetch1(cfg.subreddits[0])[k].id)
    ensures var o1 := Main(cfg, Some(file), today1, fetch1).value;
      var o2 := Main(cfg, Some(file + Ledger.EncodeAll(o1.final.rows)), today2, fetch2).value;
      && (forall d :: d in o2.final.dispatched ==> d.post.id !in Ledger.Ids(o1.final.rows))
      && (forall r :: r in o2.final.rows ==> r.id !in Ledger.Ids(o1.final.rows))
  {
    var o1 := Main(cfg, Some(file), today1, fetch1).value;
    var ledger2 := Ledger.Load(Some(file + Ledger.EncodeAll(o1.final.rows)));
    Ledger.ReloadAfterAppend(file, o1.final.rows);
    ConsumedIdsInNextLedger(cfg, file, today1, fetch1);
    MainRecordsNewPosts(cfg, Some(file + Ledger.EncodeAll(o1.final.rows)), today2, fetch2);
  }

  /** After a run's rows are appended, every id the run consumed is in the
      ledger the next run loads: new ones through their rows, old ones
      because they were there already. */
  lemma ConsumedIdsInNextLedger(cfg: Config, file: seq<seq<string>>, today1: Dates.Date, fetch1: string -> seq<PostRecord>)
    requires |cfg.subreddits| > 0
    ensures var o1 := Main(cfg, Some(file), today1, fetch1).value;
      && o1.consumed <= |fetch1(cfg.subreddits[0])|
      && forall k :: 0 <= k < o1.consumed ==>
           fetch1(cfg.subreddits[0])[k].id in Ledger.Load(Some(file + Ledger.EncodeAll(o1.final.rows)))
  {
    var subs := cfg.subreddits;
    var o1 := Main(cfg, Some(file), today1, fetch1).value;
    var posts1 := fetch1(subs[0]);
    var ledger1 := Ledger.Load(Some(file));
    var ledger2 := Ledger.Load(Some(file + Ledger.EncodeAll(o1.final.rows)));
    Ledger.ReloadAfterAppend(file, o1.final.rows);
    MainRecordsNewPosts(cfg, Some(file), today1, fetch1);
    var ids := Ledger.Ids(o1.final.rows);
    forall k | 0 <= k < o1.consumed
      ensures posts1[k].id in ledger2
    {
      if posts1[k].id !in ledger1 {
        var r := Ledger.Row(posts1[k].id, today1);
        var i :| 0 <= i < |o1.final.rows| && o1.final.rows[i] == r;
        assert ids[i] == r.id;
      }
    }
  }
}

=== FILE: ledger.dfy ===
/** The dedup ledger `downloaded.csv`: one row `id,date` per processed post.
    The file is modelled as its CSV rows, each a list of fields; the CSV
    text encoding itself belongs to Python's `csv` module. */
module Ledger {
  import opened Wrappers
  import Dates

  /** One appended ledger row: the post id and the day it was processed. */
  datatype Row = Row(id: string, date: Dates.Date)

  /** The first field of every non-empty row, in file order. */
  function FirstFields(rows: seq<seq<string>>): (ids: seq<string>)
    ensures |ids| <= |rows|
    ensures forall x :: x in ids <==> exists i :: 0 <= i < |rows| && |rows[i]| > 0 && rows[i][0] == x
    decreases |rows|
  {
    if |rows| == 0 then []
    else
      var rest := FirstFields(rows[1..]);
      assert forall i :: 1 <= i < |rows| ==> rows[i] == rows[1..][i - 1];
      if |rows[0]| > 0 then [rows[0][0]] + rest else rest
  }

  /** The ledger loaded at startup: `[i[0] for i in csv.reader(f) if i]`,
      or the empty list when the file does not exist. */
  function Load(file: Option<seq<seq<string>>>): (ids: seq<string>)
    ensures file.None? ==> ids == []
    ensures file.Some? ==> forall x :: x in ids <==> exists i :: 0 <= i < |file.value| && |file.value[i]| > 0 && file.value[i][0] == x
  {
    match file
    case None => []
    case Some(rows) => FirstFields(rows)
  }

  /** `writerow([content_id, date.today()])`: the fields of an appended row. */
  function Encode(r: Row): seq<string>
  {
    [r.id, Dates.FormatDate(r.date)]
  }

  function EncodeAll(rs: seq<Row>): seq<seq<string>>
  {
    seq(|rs|, i requires 0 <= i < |rs| => Encode(rs[i]))
  }

  /** The ids of a list of rows, in order. */
  function Ids(rs: seq<Row>): seq<string>
  {
    seq(|rs|, i requires 0 <= i < |rs| => rs[i].id)
  }

  /** Loading a file is loading its two halves one after the other. */
  lemma {:induction false} FirstFieldsAppend(a: seq<seq<string>>, b: seq<seq<string>>)
    ensures FirstFields(a + b) == FirstFields(a) + FirstFields(b)
    decreases |a|
  {
    if |a| > 0 {
      assert (a + b)[1..] == a[1..] + b;
      FirstFieldsAppend(a[1..], b);
    } else {
      assert a + b == b;
    }
  }

  /** Appended rows read back as their ids. */
  lemma {:induction false} FirstFieldsOfEncoded(rs: seq<Row>)
    ensures FirstFields(EncodeAll(rs)) == Ids(rs)
    decreases |rs|
  {
    if |rs| > 0 {
      assert EncodeAll(rs)[1..] == EncodeAll(rs[1..]);
      assert Ids(rs) == [rs[0].id] + Ids(rs[1..]);
      FirstFieldsOfEncoded(rs[1..]);
    }
  }

  /** The next run's ledger: after rows are appended to an existing file,
      loading it yields the old ids followed by the appended ids. */
  lemma ReloadAfterAppend(file: seq<seq<string>>, rs: seq<Row>)
    ensures Load(Some(file + EncodeAll(rs))) == Load(Some(file)) + Ids(rs)
  {
    FirstFieldsAppend(file, EncodeAll(rs));
    FirstFieldsOfEncoded(rs);
  }
}

=== FILE: media.dfy ===
/** The media classifier and the file-naming policy: which of the four
    download strategies applies to a post, and where each file lands. */
module Media {
  import opened Wrappers
  import opened Text
  import opened Sanitize

  /** Titles are cut to 50 characters and authors to 10 before sanitizing. */
  const TitleLimit: nat := 50
  const AuthorLimit: nat := 10

  /** The inline media payload of a post, reduced to the keys the downloader
      reads: `reddit_video.fallback_url` and the `media_url` of each item of
      `gallery_data.items`, each present or absent. A falsy payload (missing
      or an empty dict) is `None` in `PostRecord.media`. */
  datatype MediaPayload = MediaPayload(videoFallback: Option<string>, galleryItems: Option<seq<string>>)

  /** A post as the feed yields it. `author` is `None` for a deleted account. */
  datatype PostRecord = PostRecord(
    id: string,
    title: string,
    author: Option<string>,
    url: string,
    mediaOnly: bool,
    isVideo: bool,
    media: Option<MediaPayload>)

  /** The classifier's decision; gallery items are (url, extension) pairs. */
  datatype MediaPlan =
    | SingleFile(url: string, ext: string)
    | HostedVideo(url: string)
    | Gallery(items: seq<(string, string)>)
    | Unsupported

  /** An effect the downloader performs: make sure a folder exists, or fetch
      `url` into file `name` inside the folder `path` (a list of segments). */
  datatype Action =
    | EnsureFolder(path: seq<string>)
    | Download(path: seq<string>, name: string, url: string)

  /** `str(submission.author)`. */
  function AuthorName(author: Option<string>): string
  {
    match author
    case None => "None"
    case Some(name) => name
  }

  /** `url.endswith(('.jpg', '.jpeg', '.png', '.gif'))`. */
  predicate HasImageSuffix(url: string)
  {
    EndsWith(url, ".jpg") || EndsWith(url, ".jpeg") || EndsWith(url, ".png") || EndsWith(url, ".gif")
  }

  /** `is_video and media and 'reddit_video' in media`. */
  predicate HasHostedVideo(p: PostRecord)
  {
    p.isVideo && p.media.Some? && p.media.value.videoFallback.Some?
  }

  /** `media and 'gallery_data' in media`. */
  predicate HasGallery(p: PostRecord)
  {
    p.media.Some? && p.media.value.galleryItems.Some?
  }

  /** The classifier: the first matching rule wins, in the order direct
      media, image suffix, hosted video, gallery; anything else is
      unsupported. Every extension is the URL's last dot-segment. */
  function Classify(p: PostRecord): (plan: MediaPlan)
    ensures plan.SingleFile? <==> p.mediaOnly || HasImageSuffix(p.url)
    ensures plan.HostedVideo? <==> !p.mediaOnly && !HasImageSuffix(p.url) && HasHostedVideo(p)
    ensures plan.Gallery? <==> !p.mediaOnly && !HasImageSuffix(p.url) && !HasHostedVideo(p) && HasGallery(p)
    ensures plan.SingleFile? ==> plan == SingleFile(p.url, Extension(p.url))
    ensures plan.HostedVideo? ==> plan.url == p.media.value.videoFallback.value
    ensures plan.Gallery? ==>
      var urls := p.media.value.galleryItems.value;
      |plan.items| == |urls| &&
      forall i :: 0 <= i < |urls| ==> plan.items[i] == (urls[i], Extension(urls[i]))
  {
    if p.mediaOnly then SingleFile(p.url, Extension(p.url))
    else if HasImageSuffix(p.url) then SingleFile(p.url, Extension(p.url))
    else if HasHostedVideo(p) then HostedVideo(p.media.value.videoFallback.value)
    else if HasGallery(p) then
      var urls := p.media.value.galleryItems.value;
      Gallery(seq(|urls|, i requires 0 <= i < |urls| => (urls[i], Extension(urls[i]))))
    else Unsupported
  }

  /** A post whose URL has an image suffix is a single file whose extension
      is exactly that suffix without its dot, whether or not it is also
      flagged as direct media. */
  lemma ImagePostExtension(p: PostRecord)
    requires HasImageSuffix(p.url)
    ensures Classify(p).SingleFile?
    ensures Classify(p).ext in {"jpg", "jpeg", "png", "gif"}
    ensures EndsWith(p.url, "." + Classify(p).ext)
  {
    ImageExtension(p.url);
  }

  lemma ImageExtension(u: string)
    requires HasImageSuffix(u)
    ensures Extension(u) in {"jpg", "jpeg", "png", "gif"}
    ensures EndsWith(u, "." + Extension(u))
  {
    if EndsWith(u, ".jpg") {
      assert ".jpg" == "." + "jpg";
      ExtensionOfDottedSuffix(u, "jpg");
    } else if EndsWith(u, ".jpeg") {
      assert ".jpeg" == "." + "jpeg";
      ExtensionOfDottedSuffix(u, "jpeg");
    } else if EndsWith(u, ".png") {
      assert ".png" == "." + "png";
      ExtensionOfDottedSuffix(u, "png");
    } else {
      assert ".gif" == "." + "gif";
      ExtensionOfDottedSuffix(u, "gif");
    }
  }

  /** The sanitized title part of every name. */
  function TitlePart(p: PostRecord): string
  {
    SafeTitle(Take(p.title, TitleLimit))
  }

  /** The sanitized author part of every name. */
  function AuthorPart(p: PostRecord): string
  {
    SafeTitle(Take(AuthorName(p.author), AuthorLimit))
  }

  /** Sanitizing the first n characters of a text. */
  lemma SanitizedPrefix(s: string, n: nat)
    ensures |SafeTitle(Take(s, n))| == Min(|s|, n)
    ensures forall i :: 0 <= i < |SafeTitle(Take(s, n))| ==>
      SafeTitle(Take(s, n))[i] == SanitizeChar(s[i]) && !Reserved(SafeTitle(Take(s, n))[i])
  {
    var t := Take(s, n);
    SafeTitleIsSafe(t);
    assert forall i :: 0 <= i < |t| ==> t[i] == s[i];
  }

  /** The title part is the first 50 characters of the title and the author
      part the first 10 of `str(author)`, each passed through the sanitizer,
      so neither holds a reserved character. */
  lemma NamePartsSanitized(p: PostRecord)
    ensures |TitlePart(p)| == Min(|p.title|, TitleLimit)
    ensures forall i :: 0 <= i < |TitlePart(p)| ==>
      TitlePart(p)[i] == SanitizeChar(p.title[i]) && !Reserved(TitlePart(p)[i])
    ensures |AuthorPart(p)| == Min(|AuthorName(p.author)|, AuthorLimit)
    ensures forall i :: 0 <= i < |AuthorPart(p)| ==>
      AuthorPart(p)[i] == SanitizeChar(AuthorName(p.author)[i]) && !Reserved(AuthorPart(p)[i])
  {
    SanitizedPrefix(p.title, TitleLimit);
    SanitizedPrefix(AuthorName(p.author), AuthorLimit);
  }

  /** The two sanitized parts every file name of a post is built from. */
  datatype NameParts = NameParts(title: string, author: string)

  function PostNames(p: PostRecord): NameParts
  {
    NameParts(TitlePart(p), AuthorPart(p))
  }

  /** `{title}_{author}.{ext}`, the name of a single file or video. */
  function SingleName(names: NameParts, ext: string): string
  {
    names.title + "_" + names.author + "." + ext
  }

  /** `file{idx}_{author}.{ext}`, the name of the idx-th gallery item. */
  function ItemName(names: NameParts, idx: nat, ext: string): string
  {
    "file" + NatToString(idx) + "_" + names.author + "." + ext
  }

  /** The effects of carrying out a plan in the current folder `folder`:
      nothing for an unsupported post. Every other effect's path starts with
      the current folder; only a gallery adds a second segment, and that
      segment is the sanitized title. */
  function Execute(plan: MediaPlan, names: NameParts, folder: string): (acts: seq<Action>)
    ensures plan.Unsupported? <==> acts == []
    ensures forall k :: 0 <= k < |acts| ==> |acts[k].path| >= 1 && acts[k].path[0] == folder
    ensures forall k :: 0 <= k < |acts| ==>
      |acts[k].path| <= 2 && (|acts[k].path| == 2 ==> plan.Gallery? && acts[k].path[1] == names.title)
  {
    match plan
    case SingleFile(url, ext) => [Download([folder], SingleName(names, ext), url)]
    case HostedVideo(url) => [Download([folder], SingleName(names, "mp4"), url)]
    case Gallery(items) =>
      var sub := [folder, names.title];
      [EnsureFolder(sub)] +
      seq(|items|, i requires 0 <= i < |items| => Download(sub, ItemName(names, i + 1, items[i].1), items[i].0))
    case Unsupported => []
  }

  /** Dots are not reserved, so a post titled `..` keeps that title part,
      and a gallery from it names its subfolder `..` inside the current
      folder. Joined as a file system path, that subfolder is the parent of
      the current folder. */
  lemma DotDotTitleGallery(p: PostRecord, items: seq<(string, string)>, folder: string)
    requires p.title == ".."
    ensures TitlePart(p) == ".."
    ensures Execute(Gallery(items), PostNames(p), folder)[0] == EnsureFolder([folder, ".."])
  {
    DotDotTitlePart(p);
    GalleryFirstAction(items, PostNames(p), folder);
  }

  lemma DotDotTitlePart(p: PostRecord)
    requires p.title == ".."
    ensures TitlePart(p) == ".."
  {
    var cut := Take(p.title, TitleLimit);
    assert cut == "..";
    assert !Reserved('.');
    var t := SafeTitle(cut);
    assert t[0] == '.' && t[1] == '.';
  }

  /** A gallery's first effect makes its title subfolder. */
  lemma GalleryFirstAction(items: seq<(string, string)>, names: NameParts, folder: string)
    ensures Execute(Gallery(items), names, folder)[0] == EnsureFolder([folder, names.title])
  {
  }

  /** The URLs a plan fetches, in order: the post's URL or the video's
      fallback URL, or each gallery item's URL. */
  function PlanUrls(plan: MediaPlan): seq<string>
  {
    match plan
    case SingleFile(url, _) => [url]
    case HostedVideo(url) => [url]
    case Gallery(items) => seq(|items|, i requires 0 <= i < |items| => items[i].0)
    case Unsupported => []
  }

  /** The URLs that a list of effects downloads, in order. */
  function DownloadUrls(acts: seq<Action>): seq<string>
    decreases |acts|
  {
    if |acts| == 0 then []
    else (if acts[0].Download? then [acts[0].url] else []) + DownloadUrls(acts[1..])
  }

  /** When every effect is a download, the downloaded URLs are the effects'
      URLs position by position. */
  lemma {:induction false} DownloadUrlsOfDownloads(acts: seq<Action>)
    requires forall k :: 0 <= k < |acts| ==> acts[k].Download?
    ensures |DownloadUrls(acts)| == |acts|
    ensures forall k :: 0 <= k < |acts| ==> DownloadUrls(acts)[k] == acts[k].url
    decreases |acts|
  {
    if |acts| > 0 {
      DownloadUrlsOfDownloads(acts[1..]);
    }
  }

  /** `{prefix}{ext}` with a dot between: the shape of every file name. */
  predicate NamedAs(name: string, stem: string, ext: string)
  {
    |name| == |stem| + 1 + |ext| && stem + "." <= name && EndsWith(name, "." + ext)
  }

  /** What each download fetches and how the file is named: the downloads
      fetch exactly the plan's URLs in order; a single file is named
      `{title}_{author}.{ext}` and a video `{title}_{author}.mp4`, both in
      the current folder; a gallery first makes its title subfolder, then
      names item k (from 1) `file{k}_{author}.{ext}` with that item's URL
      and extension. */
  lemma ExecuteFetchesPlan(plan: MediaPlan, names: NameParts, folder: string)
    ensures DownloadUrls(Execute(plan, names, folder)) == PlanUrls(plan)
    ensures plan.SingleFile? ==>
      var acts := Execute(plan, names, folder);
      && |acts| == 1 && acts[0].Download? && acts[0].path == [folder]
      && NamedAs(acts[0].name, names.title + "_" + names.author, plan.ext)
    ensures plan.HostedVideo? ==>
      var acts := Execute(plan, names, folder);
      && |acts| == 1 && acts[0].Download? && acts[0].path == [folder]
      && NamedAs(acts[0].name, names.title + "_" + names.author, "mp4")
    ensures plan.Gallery? ==>
      var acts := Execute(plan, names, folder);
      && |acts| == |plan.items| + 1
      && acts[0] == EnsureFolder([folder, names.title])
      && forall k :: 1 <= k <= |plan.items| ==>
           && acts[k].Download? && acts[k].path == [folder, names.title]
           && acts[k].url == plan.items[k - 1].0
           && NamedAs(acts[k].name, "file" + NatToString(k) + "_" + names.author, plan.items[k - 1].1)
  {
    match plan
    case SingleFile(url, ext) => SingleFetch(url, ext, names, folder);
    case HostedVideo(url) => VideoFetch(url, names, folder);
    case Gallery(items) => GalleryFetch(items, names, folder);
    case Unsupported =>
  }

  lemma SingleFetch(url: string, ext: string, names: NameParts, folder: string)
    ensures var acts := Execute(SingleFile(url, ext), names, folder);
      && DownloadUrls(acts) == [url]
      && |acts| == 1 && acts[0].Download? && acts[0].path == [folder]
      && NamedAs(acts[0].name, names.title + "_" + names.author, ext)
  {
    var acts := Execute(SingleFile(url, ext), names, folder);
    assert acts[1..] == [];
    NamedAsJoin(names.title + "_" + names.author, ext);
  }

  lemma VideoFetch(url: string, names: NameParts, folder: string)
    ensures var acts := Execute(HostedVideo(url), names, folder);
      && DownloadUrls(acts) == [url]
      && |acts| == 1 && acts[0].Download? && acts[0].path == [folder]
      && NamedAs(acts[0].name, names.title + "_" + names.author, "mp4")
  {
    var acts := Execute(HostedVideo(url), names, folder);
    assert acts[1..] == [];
    NamedAsJoin(names.title + "_" + names.author, "mp4");
  }

  lemma GalleryFetch(items: seq<(string, string)>, names: NameParts, folder: string)
    ensures var acts := Execute(Gallery(items), names, folder);
      && DownloadUrls(acts) == PlanUrls(Gallery(items))
      && |acts| == |items| + 1
      && acts[0] == EnsureFolder([folder, names.title])
      && forall k :: 1 <= k <= |items| ==>
           && acts[k].Download? && acts[k].path == [folder, names.title]
           && acts[k].url == items[k - 1].0
           && NamedAs(acts[k].name, "file" + NatToString(k) + "_" + names.author, items[k - 1].1)
  {
    GalleryUrls(items, names, folder);
    GalleryNames(items, names, folder);
  }

  lemma GalleryUrls(items: seq<(string, string)>, names: NameParts, folder: string)
    ensures DownloadUrls(Execute(Gallery(items), names, folder)) == PlanUrls(Gallery(items))
  {
    var acts := Execute(Gallery(items), names, folder);
    var rest := acts[1..];
    assert forall k :: 0 <= k < |rest| ==> rest[k] == acts[k + 1];
    DownloadUrlsOfDownloads(rest);
    assert DownloadUrls(acts) == DownloadUrls(rest);
  }

  lemma GalleryNames(items: seq<(string, string)>, names: NameParts, folder: string)
    ensures var acts := Execute(Gallery(items), names, folder);
      && |acts| == |items| + 1
      && acts[0] == EnsureFolder([folder, names.title])
      && forall k :: 1 <= k <= |items| ==>
           && acts[k].Download? && acts[k].path == [folder, names.title]
           && acts[k].url == items[k - 1].0
           && NamedAs(acts[k].name, "file" + NatToString(k) + "_" + names.author, items[k - 1].1)
  {
    var acts := Execute(Gallery(items), names, folder);
    forall k | 1 <= k <= |items|
      ensures && acts[k].Download? && acts[k].path == [folder, names.title]
              && acts[k].url == items[k - 1].0
              && NamedAs(acts[k].name, "file" + NatToString(k) + "_" + names.author, items[k - 1].1)
    {
      GalleryItemAction(items, names, folder, k - 1);
      NamedAsJoin("file" + NatToString(k) + "_" + names.author, items[k - 1].1);
    }
  }

  lemma GalleryItemAction(items: seq<(string, string)>, names: NameParts, folder: string, i: nat)
    requires i < |items|
    ensures |Execute(Gallery(items), names, folder)| == |items| + 1
    ensures Execute(Gallery(items), names, folder)[i + 1] ==
      Download([folder, names.title], ItemName(names, i + 1, items[i].1), items[i].0)
  {
  }

  lemma NamedAsJoin(stem: string, ext: string)
    ensures NamedAs(stem + "." + ext, stem, ext)
  {
    var name := stem + "." + ext;
    assert name[..|stem| + 1] == stem + ".";
    assert name[|name| - |ext| - 1..] == "." + ext;
  }

  /** A worked example of gallery naming: the gallery post "Foo/Bar" by
      alice with items `a.png` and `b.jpg` makes the subfolder `Foo_Bar` and
      downloads `file1_alice.png` and `file2_alice.jpg` into it. */
  lemma GalleryNamingExample(folder: string)
    ensures var p := PostRecord("abc", "Foo/Bar", Some("alice"), "https://www.reddit.com/gallery/abc", false, false,
                                Some(MediaPayload(None, Some(["a.png", "b.jpg"]))));
      Execute(Classify(p), PostNames(p), folder) ==
        [ EnsureFolder([folder, "Foo_Bar"]),
          Download([folder, "Foo_Bar"], "file1_alice.png", "a.png"),
          Download([folder, "Foo_Bar"], "file2_alice.jpg", "b.jpg") ]
  {
    var p := PostRecord("abc", "Foo/Bar", Some("alice"), "https://www.reddit.com/gallery/abc", false, false,
                        Some(MediaPayload(None, Some(["a.png", "b.jpg"]))));
    var items := [("a.png", "png"), ("b.jpg", "jpg")];
    ExampleClassify(p);
    ExampleNames(p);
    var names := NameParts("Foo_Bar", "alice");
    GalleryOfTwo(items[0], items[1], names, folder);
    assert items == [items[0], items[1]];
    ExampleItemName(names, 1, "png", "file1_alice.png");
    ExampleItemName(names, 2, "jpg", "file2_alice.jpg");
  }

  lemma GalleryOfTwo(a: (string, string), b: (string, string), names: NameParts, folder: string)
    ensures Execute(Gallery([a, b]), names, folder) ==
      [ EnsureFolder([folder, names.title]),
        Download([folder, names.title], ItemName(names, 1, a.1), a.0),
        Download([folder, names.title], ItemName(names, 2, b.1), b.0) ]
  {
    var acts := Execute(Gallery([a, b]), names, folder);
    GalleryFirstAction([a, b], names, folder);
    GalleryItemAction([a, b], names, folder, 0);
    GalleryItemAction([a, b], names, folder, 1);
    assert acts == [acts[0], acts[1], acts[2]];
  }

  lemma ExampleItemName(names: NameParts, idx: nat, ext: string, name: string)
    requires names.author == "alice" && 1 <= idx <= 2
    requires ext == (if idx == 1 then "png" else "jpg")
    requires name == (if idx == 1 then "file1_alice.png" else "file2_alice.jpg")
    ensures ItemName(names, idx, ext) == name
  {
    var d := NatToString(idx);
    assert d == [DigitChar(idx)];
    var digit := if idx == 1 then '1' else '2';
    assert d == [digit];
    var stem := "file" + d + "_" + names.author;
    assert stem == ['f', 'i', 'l', 'e', digit, '_', 'a', 'l', 'i', 'c', 'e'];
    assert stem + "." + ext == name;
  }

  lemma ExampleClassify(p: PostRecord)
    requires p == PostRecord("abc", "Foo/Bar", Some("alice"), "https://www.reddit.com/gallery/abc", false, false,
                             Some(MediaPayload(None, Some(["a.png", "b.jpg"]))))
    ensures Classify(p) == Gallery([("a.png", "png"), ("b.jpg", "jpg")])
  {
    ExampleNotImage(p.url);
    ExampleExtensions();
    var urls := ["a.png", "b.jpg"];
    ClassifyPlainGallery(p, urls);
    PairOf(Classify(p).items, ("a.png", "png"), ("b.jpg", "jpg"));
  }

  lemma PairOf<T>(xs: seq<T>, x: T, y: T)
    requires |xs| == 2 && xs[0] == x && xs[1] == y
    ensures xs == [x, y]
  {
  }

  /** A post that is neither direct media, nor an image URL, nor a video,
      and carries gallery data is a gallery of its item URLs. */
  lemma ClassifyPlainGallery(p: PostRecord, urls: seq<string>)
    requires !p.mediaOnly && !HasImageSuffix(p.url) && !p.isVideo
    requires p.media == Some(MediaPayload(None, Some(urls)))
    ensures Classify(p).Gallery? && |Classify(p).items| == |urls|
    ensures forall i :: 0 <= i < |urls| ==> Classify(p).items[i] == (urls[i], Extension(urls[i]))
  {
  }

  lemma ExampleExtensions()
    ensures Extension("a.png") == "png" && Extension("b.jpg") == "jpg"
  {
    assert "a.png" == "a" + "." + "png";
    ExtensionAfterStem("a", "png");
    assert "b.jpg" == "b" + "." + "jpg";
    ExtensionAfterStem("b", "jpg");
  }

  lemma ExtensionAfterStem(stem: string, e: string)
    requires '.' !in e
    ensures Extension(stem + "." + e) == e
  {
    var s := stem + "." + e;
    assert s[|s| - |"." + e|..] == "." + e;
    ExtensionOfDottedSuffix(s, e);
  }

  lemma ExampleNotImage(url: string)
    requires url == "https://www.reddit.com/gallery/abc"
    ensures !HasImageSuffix(url)
  {
    assert url[|url| - 1] == 'c';
  }

  lemma ExampleNames(p: PostRecord)
    requires p.title == "Foo/Bar" && p.author == Some("alice")
    ensures PostNames(p) == NameParts("Foo_Bar", "alice")
  {
    assert Take(p.title, TitleLimit) == "Foo/Bar";
    assert Take(AuthorName(p.author), AuthorLimit) == "alice";
    ExampleTitle();
    ExampleAuthor();
  }

  lemma ExampleTitle()
    ensures SafeTitle("Foo/Bar") == "Foo_Bar"
  {
    var s := "Foo/Bar";
    var t := "Foo_Bar";
    forall i | 0 <= i < |s|
      ensures t[i] == SanitizeChar(s[i])
    {
      ReservedExactly(s[i]);
    }
    SafeTitleOf(s, t);
  }

  lemma ExampleAuthor()
    ensures SafeTitle("alice") == "alice"
  {
    var s := "alice";
    forall i | 0 <= i < |s|
      ensures s[i] == SanitizeChar(s[i])
    {
      ReservedExactly(s[i]);
    }
    SafeTitleOf(s, s);
  }

  /** The number of digits at the start of `s`. */
  function LeadingDigits(s: string): nat
    decreases |s|
  {
    if |s| > 0 && IsDigit(s[0]) then 1 + LeadingDigits(s[1..]) else 0
  }

  /** Digits followed by a non-digit: the leading run is exactly the digits. */
  lemma {:induction false} LeadingDigitsOf(a: string, r: string)
    requires AllDigits(a)
    requires |r| > 0 && !IsDigit(r[0])
    ensures LeadingDigits(a + r) == |a|
    decreases |a|
  {
    if |a| > 0 {
      assert (a + r)[1..] == a[1..] + r;
      LeadingDigitsOf(a[1..], r);
    } else {
      assert a + r == r;
    }
  }

  /** A run of digits followed by an underscore is determined by the text:
      the digits end at the first underscore. */
  lemma DigitsBeforeUnderscore(a: string, b: string, r1: string, r2: string)
    requires AllDigits(a) && AllDigits(b)
    requires |r1| > 0 && r1[0] == '_' && |r2| > 0 && r2[0] == '_'
    requires a + r1 == b + r2
    ensures a == b
  {
    LeadingDigitsOf(a, r1);
    LeadingDigitsOf(b, r2);
    assert a == (a + r1)[..|a|];
    assert b == (b + r2)[..|b|];
  }

  /** Two gallery items of one post never share a file name. */
  lemma ItemNamesDistinct(names: NameParts, i: nat, j: nat, e1: string, e2: string)
    requires i != j
    ensures ItemName(names, i, e1) != ItemName(names, j, e2)
  {
    var a := NatToString(i);
    var b := NatToString(j);
    var r1 := "_" + names.author + "." + e1;
    var r2 := "_" + names.author + "." + e2;
    assert ItemName(names, i, e1) == "file" + (a + r1);
    assert ItemName(names, j, e2) == "file" + (b + r2);
    if ItemName(names, i, e1) == ItemName(names, j, e2) {
      assert a + r1 == ("file" + (a + r1))[4..];
      assert b + r2 == ("file" + (b + r2))[4..];
      DigitsBeforeUnderscore(a, b, r1, r2);
      NatToStringInjective(i, j);
    }
  }

  /** Within one post, no two downloads write the same file. */
  lemma ExecuteNamesDistinct(plan: MediaPlan, names: NameParts, folder: string)
    ensures var acts := Execute(plan, names, folder);
      forall k, l :: 0 <= k < l < |acts| && acts[k].Download? && acts[l].Download? ==>
        acts[k].path != acts[l].path || acts[k].name != acts[l].name
  {
    var acts := Execute(plan, names, folder);
    if plan.Gallery? {
      forall k, l | 0 <= k < l < |acts| && acts[k].Download? && acts[l].Download?
        ensures acts[k].path != acts[l].path || acts[k].name != acts[l].name
      {
        ItemNamesDistinct(names, k, l, plan.items[k - 1].1, plan.items[l - 1].1);
      }
    }
  }
}

=== FILE: sanitize.dfy ===
/** The filename sanitizer `safe_title`: every character that is reserved in
    file names on common file systems becomes an underscore. */
module Sanitize {

  /** The nine reserved characters, in the order `safe_title` replaces them. */
  const ReservedChars: string := "\\/:*?\"<>|"

  predicate Reserved(c: char)
  {
    c in ReservedChars
  }

  /** Reference definition: what sanitizing does to one character. */
  function SanitizeChar(c: char): char
  {
    if Reserved(c) then '_' else c
  }

  /** Python's `s.replace(from, to)` for single characters. */
  function Replace(s: string, from: char, to: char): (r: string)
    ensures |r| == |s|
    ensures forall i :: 0 <= i < |s| ==> r[i] == (if s[i] == from then to else s[i])
    decreases |s|
  {
    if |s| == 0 then []
    else [if s[0] == from then to else s[0]] + Replace(s[1..], from, to)
  }

  /** One `replace(c, '_')` pass per character of `targets`, in order. */
  function ReplaceEach(s: string, targets: string): (r: string)
    ensures |r| == |s|
    ensures forall i :: 0 <= i < |s| ==> r[i] == (if s[i] in targets then '_' else s[i])
    decreases |targets|
  {
    if |targets| == 0 then s
    else
      assert targets == [targets[0]] + targets[1..];
      ReplaceEach(Replace(s, targets[0], '_'), targets[1..])
  }

  /** `safe_title`, as written: a replace pass for each reserved character.
      Its effect is the character-wise map `SanitizeChar`. */
  function SafeTitle(title: string): (r: string)
    ensures |r| == |title|
    ensures forall i :: 0 <= i < |title| ==> r[i] == SanitizeChar(title[i])
  {
    ReplaceEach(title, ReservedChars)
  }

  /** The result holds no reserved character, and every other character of
      the input is kept at its position. */
  lemma SafeTitleIsSafe(title: string)
    ensures forall i :: 0 <= i < |title| ==> !Reserved(SafeTitle(title)[i])
    ensures forall i :: 0 <= i < |title| && !Reserved(title[i]) ==> SafeTitle(title)[i] == title[i]
  {
    assert !Reserved('_');
  }

  /** Sanitizing twice is sanitizing once. */
  lemma SafeTitleIdempotent(title: string)
    ensures SafeTitle(SafeTitle(title)) == SafeTitle(title)
  {
    SafeTitleIsSafe(title);
    var once := SafeTitle(title);
    assert forall i :: 0 <= i < |once| ==> SafeTitle(once)[i] == once[i];
  }

  /** Sanitizing commutes with taking a prefix, so truncating before or after
      sanitizing gives the same name. */
  lemma SafeTitlePrefix(title: string, n: nat)
    requires n <= |title|
    ensures SafeTitle(title[..n]) == SafeTitle(title)[..n]
  {
  }

  /** Sanitizing is determined character by character. */
  lemma SafeTitleOf(s: string, t: string)
    requires |s| == |t|
    requires forall i :: 0 <= i < |s| ==> t[i] == SanitizeChar(s[i])
    ensures SafeTitle(s) == t
  {
  }

  /** The reserved characters, one by one. */
  lemma ReservedExactly(c: char)
    ensures Reserved(c) <==> c == '\\' || c == '/' || c == ':' || c == '*' || c == '?' || c == '"' || c == '<' || c == '>' || c == '|'
  {
    assert ReservedChars == ['\\', '/', ':', '*', '?', '"', '<', '>', '|'];
  }
}

=== FILE: settings.dfy ===
/** The part of the configuration the core reads: the ordered feed list and
    the optional download cap. */
module Settings {
  import opened Wrappers

  /** The value `DOWNLOAD_LIMIT` holds once loaded: JSON `null`, a number,
      or `float('inf')`. */
  datatype Limit = Null | Number(n: int) | Infinity

  datatype Config = Config(subreddits: seq<string>, limit: Limit)

  /** `config.get("DOWNLOAD_LIMIT", float('inf'))`: `field` is the JSON
      value of the key, `None` when the key is absent. */
  function LoadLimit(field: Option<Limit>): Limit
  {
    match field
    case None => Infinity
    case Some(v) => v
  }

  /** `config["DOWNLOAD_LIMIT"] is not None and downloaded >= config["DOWNLOAD_LIMIT"]`. */
  predicate CapReached(limit: Limit, downloaded: nat)
  {
    match limit
    case Null => false
    case Number(n) => downloaded >= n
    case Infinity => false
  }

  /** Only an explicit number caps a run: an absent key and `null` both
      leave it uncapped. */
  lemma LoadedCap(field: Option<Limit>, downloaded: nat)
    ensures CapReached(LoadLimit(field), downloaded) <==>
      field.Some? && field.value.Number? && downloaded >= field.value.n
  {
  }
}

=== FILE: text.dfy ===
/** String helpers with the meaning Python gives them in the downloader:
    slicing, `str.endswith`, `str.split` on one character, `str(n)` and
    `int(s)` for non-negative decimal numbers. */
module Text {

  function Min(a: int, b: int): int
  {
    if a <= b then a else b
  }

  /** Python's `s[:n]` for a non-negative `n`. */
  function Take(s: string, n: nat): (r: string)
    ensures |r| == Min(|s|, n)
    ensures r <= s
  {
    if |s| <= n then s else s[..n]
  }

  /** Python's `s.endswith(suffix)`. */
  predicate EndsWith(s: string, suffix: string)
  {
    |suffix| <= |s| && s[|s| - |suffix|..] == suffix
  }

  /** The inverse of `Split`: the parts glued back together with `sep`. */
  function Join(parts: seq<string>, sep: char): string
    requires |parts| >= 1
    decreases |parts|
  {
    if |parts| == 1 then parts[0] else parts[0] + [sep] + Join(parts[1..], sep)
  }

  /** Python's `s.split(sep)` for a one-character separator: never empty,
      no part holds the separator, and joining the parts gives `s` back. */
  function Split(s: string, sep: char): (parts: seq<string>)
    ensures |parts| >= 1
    ensures forall i :: 0 <= i < |parts| ==> sep !in parts[i]
    ensures Join(parts, sep) == s
    ensures sep !in s ==> parts == [s]
    decreases |s|
  {
    if |s| == 0 then [[]]
    else
      var rest := Split(s[1..], sep);
      if s[0] == sep then [[]] + rest
      else [[s[0]] + rest[0]] + rest[1..]
  }

  /** Splitting at the first separator: the text before it is the first part. */
  lemma {:induction false} SplitAtFirst(a: string, sep: char, b: string)
    requires sep !in a
    ensures Split(a + [sep] + b, sep) == [a] + Split(b, sep)
    decreases |a|
  {
    if |a| == 0 {
      assert a + [sep] + b == [sep] + b;
      assert ([sep] + b)[1..] == b;
    } else {
      assert (a + [sep] + b)[1..] == a[1..] + [sep] + b;
      SplitAtFirst(a[1..], sep, b);
      assert [a[0]] + a[1..] == a;
    }
  }

  /** The last part of a join is a suffix, preceded by the separator when
      there is more than one part. */
  lemma {:induction false} JoinLast(parts: seq<string>, sep: char)
    requires |parts| >= 1
    ensures EndsWith(Join(parts, sep), parts[|parts| - 1])
    ensures |parts| > 1 ==>
      var j := Join(parts, sep);
      |j| > |parts[|parts| - 1]| && j[|j| - |parts[|parts| - 1]| - 1] == sep
    decreases |parts|
  {
    if |parts| > 1 {
      var x := parts[0] + [sep];
      var tail := Join(parts[1..], sep);
      var last := parts[|parts| - 1];
      assert Join(parts, sep) == x + tail;
      assert parts[1..][|parts[1..]| - 1] == last;
      JoinLast(parts[1..], sep);
      if |parts| == 2 {
        assert tail == last;
      }
      assert EndsWith(x + tail, last) by {
        EndsWithAppend(x, tail);
        EndsWithTrans(x + tail, tail, last);
      }
      SepBeforeSuffix(x, tail, last, sep);
    }
  }

  /** The character before `last` in `x + tail`, where `last` ends `tail`
      and is either all of it or preceded by `sep` in it, and `x` ends with
      `sep`. */
  lemma SepBeforeSuffix(x: string, tail: string, last: string, sep: char)
    requires |x| >= 1 && x[|x| - 1] == sep
    requires |last| <= |tail|
    requires |tail| == |last| || tail[|tail| - |last| - 1] == sep
    ensures |x + tail| > |last| && (x + tail)[|x + tail| - |last| - 1] == sep
  {
    var k := |tail| - |last| - 1;
    if k < 0 {
      assert (x + tail)[|x| - 1] == x[|x| - 1];
    } else {
      assert (x + tail)[|x| + k] == tail[k];
    }
  }

  lemma EndsWithAppend(x: string, y: string)
    ensures EndsWith(x + y, y)
  {
    assert (x + y)[|x|..] == y;
  }

  lemma EndsWithTrans(a: string, b: string, c: string)
    requires EndsWith(a, b) && EndsWith(b, c)
    ensures EndsWith(a, c)
  {
    assert a[|a| - |c|..] == b[|b| - |c|..];
  }

  /** Python's `s.split('.')[-1]`: the longest dot-free suffix of `s`, so the
      whole of `s` when it has no dot and otherwise the text after its last dot. */
  function Extension(s: string): (ext: string)
    ensures '.' !in ext
    ensures EndsWith(s, ext)
    ensures |ext| < |s| ==> s[|s| - |ext| - 1] == '.'
  {
    var parts := Split(s, '.');
    JoinLast(parts, '.');
    parts[|parts| - 1]
  }

  /** A string ending in `.e`, with `e` free of dots, has extension `e`. */
  lemma ExtensionOfDottedSuffix(s: string, e: string)
    requires EndsWith(s, "." + e)
    requires '.' !in e
    ensures Extension(s) == e
  {
    var x := Extension(s);
    assert s[|s| - |e| - 1] == '.';
    assert |x| == |e|;
    assert x == s[|s| - |x|..];
  }

  predicate IsDigit(c: char)
  {
    '0' <= c <= '9'
  }

  predicate AllDigits(s: string)
  {
    forall i :: 0 <= i < |s| ==> IsDigit(s[i])
  }

  function DigitValue(c: char): nat
    requires IsDigit(c)
  {
    c as int - '0' as int
  }

  function DigitChar(d: nat): (c: char)
    requires d < 10
    ensures IsDigit(c) && DigitValue(c) == d
  {
    ('0' as int + d) as char
  }

  /** Python's `str(n)` for a non-negative integer: decimal digits. */
  function NatToString(n: nat): (s: string)
    ensures |s| >= 1 && AllDigits(s)
    decreases n
  {
    if n < 10 then [DigitChar(n)] else NatToString(n / 10) + [DigitChar(n % 10)]
  }

  /** `str(n)` has no leading zero: its first digit is `0` only for zero
      itself, which is the single digit `0`. */
  lemma {:induction false} NatToStringNoLeadingZero(n: nat)
    ensures NatToString(n)[0] == '0' <==> n == 0
    ensures |NatToString(n)| == 1 || NatToString(n)[0] != '0'
    decreases n
  {
    if n >= 10 {
      var s := NatToString(n);
      assert s[0] == NatToString(n / 10)[0];
      NatToStringNoLeadingZero(n / 10);
    }
  }

  /** Python's `int(s)` on a string of ASCII digits (leading zeros allowed). */
  function ParseNat(s: string): nat
    requires AllDigits(s)
    decreases |s|
  {
    if |s| == 0 then 0 else 10 * ParseNat(s[..|s| - 1]) + DigitValue(s[|s| - 1])
  }

  /** `int(str(n)) == n`. */
  lemma {:induction false} ParseNatToString(n: nat)
    ensures ParseNat(NatToString(n)) == n
    decreases n
  {
    if n >= 10 {
      var s := NatToString(n);
      assert s[..|s| - 1] == NatToString(n / 10);
      ParseNatToString(n / 10);
    }
  }

  /** `str` is injective on non-negative integers. */
  lemma NatToStringInjective(a: nat, b: nat)
    requires NatToString(a) == NatToString(b)
    ensures a == b
  {
    ParseNatToString(a);
    ParseNatToString(b);
  }

  /** A leading zero does not change the value `int` reads. */
  lemma {:induction false} ParseNatLeadingZero(s: string)
    ensures AllDigits(s) ==> AllDigits("0" + s) && ParseNat("0" + s) == ParseNat(s)
    decreases |s|
  {
    if AllDigits(s) && |s| > 0 {
      var z := "0" + s;
      assert z[..|z| - 1] == "0" + s[..|s| - 1];
      ParseNatLeadingZero(s[..|s| - 1]);
    }
  }

  /** Left-pads `s` with zeros to width `w`, as `%0wd` formatting does. */
  function PadZeros(s: string, w: nat): (r: string)
    ensures |r| == if |s| < w then w else |s|
    ensures AllDigits(s) ==> AllDigits(r) && ParseNat(r) == ParseNat(s)
    decreases w - |s|
  {
    if |s| >= w then s
    else
      ParseNatLeadingZero(s);
      PadZeros("0" + s, w)
  }
}

=== FILE: wrappers.dfy ===
/** Failure-compatible wrappers shared by the model: an optional value and a
    value-or-error result. */
module Wrappers {

  /** A value that may be absent (Python's `None`). */
  datatype Option<T> = None | Some(value: T)

  /** A computed value, or the exception the program would raise instead. */
  datatype Result<T, E> = Success(value: T) | Failure(error: E)
}
